=== FILE: README.md ===
# Piano / organ trainer: synthesizer and guided playback

This project models the core of a browser piano trainer in Dafny:

- the `AudioService` tone engine;
- the step and playback logic of the `App` component.

The user pastes a song link. An analysis service returns a *guide*: a list of notes, each a name such as `C#` plus an octave. The app then shows the guide one step at a time on a 36-key keyboard (octaves 3 to 5). The user can step through it by hand (`nextStep`), or let an interval play it every 600 ms (`startAutoPlay`). Each auto-played note is released 400 ms later. Keys can also be played directly, with a piano or an organ sound.

## The modules

| module | file | what it holds |
|---|---|---|
| `Wrappers` | wrappers.dfy | `Option` |
| `Types` | types.dfy | the records of types.ts: `InstrumentType`, `NoteGuide`, `SongAnalysisResponse` |
| `Notes` | notes.dfy | the twelve note names, and the key `note + octave` that names a sounding voice and a keyboard key (`"C#4"`); for the twelve recognised names the key determines the note and the octave |
| `Audio` | audio.dfy | see below |
| `PianoApp` | player.dfy | see below |

**`Audio`.**
- The engine's state is the record `Engine`. One `After…` function per operation says what that operation does to it.
- Lemmas say what the operations mean, and that the invariant `Inv` is kept.
- The class `AudioService` holds the same state in fields updated in place. Each method is proved to follow its `After…` function.
- The Web Audio graph is abstracted:
  - an oscillator is its identity, waveform, pitch (a semitone offset and a harmonic multiplier), detune and level;
  - a gain node is its automation schedule;
  - the running oscillators are a set of identities;
  - the 150 ms cleanups of `stopNote` form a queue in firing order.

**`PianoApp`.** The App's state is the record `AppState`, with one transition function per handler:
- `currentStep` is a JavaScript number, so it can become `NaN`;
- every live interval is kept by handle, with its closure-local cursor and the notes and instrument it captured;
- the pending 400 ms stops form a queue;
- the engine is part of the state.

Everything that can happen is an `Event`: a user action, or a timer firing. `Run` applies a sequence of events. The class `App` owns an `AudioService`, and its methods are proved against the transition functions. `RenderKeys` is proved to build exactly the keyboard `Keyboard`.

Where the code does something other than what one would expect of it, the model follows the code:

- **Reference pitch.** The frequency formula is `440 · 2^((index + (octave − 4)·12)/12)` with C at index 0, so C4, not A4, sounds at 440 Hz (`Audio.ReferencePitchIsC4`).
- **Empty guide, stepping by hand.** `(x + 1) % 0` is `NaN` in JavaScript, so `nextStep` on an empty guide turns the step into `NaN`, and further presses leave it `NaN` (`PianoApp.NextStepOnEmptyGuide`). It is not a no-op.
- **Empty guide, auto-play.** An auto-play tick over an empty guide throws on `currentNote.note`, so it changes nothing (`PianoApp.TickOnEmptyNotes`).
- **Starting auto-play twice.** A second `startAutoPlay` overwrites `timerRef` without clearing the first interval. The first interval then keeps firing, and `stopAutoPlay` cannot reach it (`PianoApp.SecondStartOrphansFirst`, `PianoApp.OrphanRunsForever`).
- **Cleanups delete by key.** A cleanup removes whatever is registered under its key when it fires. A note played again within 150 ms of its release therefore loses its registration while it keeps sounding (`Audio.RetriggerWithinReleaseLosesVoice`, `Audio.PlayTwiceLosesRegistration`).
- **No audio context.** When no audio context can be created, `initContext` throws. `playNote`, `handlePlayNote` and the auto-play tick then change nothing (`Audio.PlayNoteWithoutContext`, `PianoApp.PlayNoteWithoutContextChangesNothing`).

## Model

| member | source | states |
|---|---|---|
| Notes.NoteNamesAreDistinct | App.tsx:8 | the twelve note names are pairwise different |
| Notes.NatToStringDigits | services/audioService.ts:29 | a rendered natural is a non-empty run of decimal digits, one digit exactly below ten |
| Notes.IntToStringShape | services/audioService.ts:29 | a rendered integer starts with `-` exactly when it is negative, otherwise with a digit |
| Notes.NatToStringInjective | services/audioService.ts:29 | different naturals render differently |
| Notes.IntToStringInjective | services/audioService.ts:29 | different integers render differently |
| Notes.KeyText | services/audioService.ts:29 | a key is the name followed by the octave in decimal: "C4", "E4", "C#3", "A-1" |
| Notes.KeyInjective | App.tsx:91 | for recognised names, equal keys mean equal name and equal octave |
| Audio.IndexOfSpec | services/audioService.ts:20 | indexOf returns the first position holding the name, and −1 exactly when it is absent |
| Audio.IndexOfNoteName | services/audioService.ts:19-20 | each of the twelve names is found at its own position |
| Audio.ReferencePitchIsC4 | services/audioService.ts:18-22 | C4 has offset 0 (440 Hz); A4 is 9 semitones above it |
| Audio.RecognisedNoteOffset | services/audioService.ts:18-22 | a known note's offset is its position plus 12 per octave above 4; one octave up adds 12 |
| Audio.UnknownNoteSoundsAsB | services/audioService.ts:20-21 | an unknown name counts as index −1, i.e. the pitch of B an octave lower |
| Audio.OffsetInjective | services/audioService.ts:18-22 | two recognised notes with the same pitch are the same name and octave |
| Audio.PianoVoiceShape | services/audioService.ts:39-58 | piano voice: a sine and a triangle at the fundamental, the triangle detuned +4 cents, no per-oscillator gain |
| Audio.OrganVoiceShape | services/audioService.ts:59-72 | organ voice: five sines at ×1, 2, 3, 4, 6, each with gain 0.2/(position+1), strictly decreasing, 0.04 on the sixth harmonic |
| Audio.RecipeIds | services/audioService.ts:37-76 | a voice has 2 (piano) or 5 (organ) oscillators with consecutive identities from `firstId` |
| Audio.NewEngine | services/audioService.ts:4-7 | a fresh service, before any context exists, satisfies the engine invariant |
| Audio.InitContextKeepsInv | services/audioService.ts:9-16 | initContext keeps the engine invariant |
| Audio.StopNoteKeepsInv | services/audioService.ts:83-102 | stopNote keeps the engine invariant |
| Audio.PlayNoteKeepsInv | services/audioService.ts:24-81 | playNote keeps the engine invariant |
| Audio.CleanupKeepsInv | services/audioService.ts:94-100 | a firing cleanup keeps the engine invariant |
| Audio.InitContextOnce | services/audioService.ts:9-16 | the context is created at most once and then kept; resume is requested exactly when it is suspended; the registries are untouched |
| Audio.PlayNoteWithoutContext | services/audioService.ts:24-26 | without a creatable context, playNote leaves the engine unchanged |
| Audio.PlayNoteKeepsContext | services/audioService.ts:25-26 | after playNote with a creatable context, a context exists |
| Audio.PlayNoteRegistersVoice | services/audioService.ts:24-81 | playNote registers under the key exactly the instrument's recipe (2 or 5 fresh oscillators at the note's pitch) with the instrument's envelope, and adds exactly them to the sounding set |
| Audio.PlayNoteLeavesOtherKeys | services/audioService.ts:29-32 | playNote touches no other key; an earlier voice under the same key gets exactly one cleanup queued |
| Audio.StopNoteReleases | services/audioService.ts:83-102 | stopNote is a no-op without a registered voice; otherwise only the gain's schedule becomes the 100 ms release ramp, and one cleanup capturing the current oscillators is queued; the context, the platform and the identity counter are untouched |
| Audio.CleanupDeletesByKey | services/audioService.ts:94-100 | a cleanup removes its key from both registries, stops only its captured oscillators; the oscillators and gain nodes (with their schedules) of every other key, the context and the identity counter are unchanged |
| Audio.DoubleStopIsBenign | services/audioService.ts:83-102 | stopping twice queues two cleanups; after both have fired the engine is as after one stop |
| Audio.RetriggerWithinReleaseLosesVoice | services/audioService.ts:94-100 | play, stop, play again before the cleanup: the cleanups delete the new registration, the new voice keeps sounding, and stopNote can no longer reach it |
| Audio.PlayTwiceLosesRegistration | services/audioService.ts:31-32 | two plays without a stop: the cleanup queued by the second play deletes the second voice's registration while it sounds |
| Audio.RetriggerAfterReleaseKeepsVoice | services/audioService.ts:94-100 | when the cleanup fires before the replay, the replayed voice stays registered and sounding, and the old one is silent |
| Audio.AudioService.constructor | services/audioService.ts:4-7 | the new service's state is `NewEngine` |
| Audio.AudioService.InitContext | services/audioService.ts:9-16 | updates the fields as `AfterInitContext` says and keeps the invariant |
| Audio.AudioService.ResumeSettled | services/audioService.ts:13-15 | a settled resume leaves the context running |
| Audio.AudioService.BuildVoice | services/audioService.ts:39-76 | the oscillators built, harmonic by harmonic for the organ, and the envelope are those of the instrument's recipe |
| Audio.AudioService.PlayNote | services/audioService.ts:24-81 | updates the fields as `AfterPlayNote` says, keeps the invariant, and reports whether a context existed |
| Audio.AudioService.StopNote | services/audioService.ts:83-93 | updates the fields as `AfterStopNote` says and keeps the invariant |
| Audio.AudioService.FireCleanup | services/audioService.ts:94-100 | stopping the captured oscillators one by one and deleting the key gives `AfterCleanup` |
| PianoApp.JsRem | App.tsx:62 | JavaScript's `%`: the Euclidean remainder for a non-negative dividend; for a negative one, the value in (−n, 0] congruent to the dividend, i.e. the remainder truncated toward zero |
| PianoApp.NextStepWraps | App.tsx:60-63 | from −1 the step goes to 0; from the last note it wraps to 0; otherwise it goes to the next note |
| PianoApp.NextStepStaysInGuide | App.tsx:60-63 | from −1 or any note, the next step is a note of the guide |
| PianoApp.NextStepOnEmptyGuide | App.tsx:62 | on an empty guide the step becomes NaN and stays NaN |
| PianoApp.NextStepCycles | App.tsx:60-63 | k presses from note i land on note (i + k) mod len |
| PianoApp.KeyboardRows | App.tsx:84-89 | the keyboard is the octave-3 row, then 4, then 5: 36 keys |
| PianoApp.KeyAt | App.tsx:86-91 | key i is note i mod 12 of octave 3 + i div 12 |
| PianoApp.KeyboardLayout | App.tsx:84-109 | 36 keys; names and octaves in order; id is name + octave; black exactly at C#, D#, F#, G#, A#; active exactly when the id is held |
| PianoApp.BlackNames | App.tsx:90 | a name contains `#` exactly at positions 1, 3, 6, 8, 10 |
| PianoApp.KeyIdsDistinct | App.tsx:91 | no two keys share an id |
| PianoApp.AtMostOneHighlighted | App.tsx:92 | at most one key is highlighted |
| PianoApp.NothingHighlightedOffTheGuide | App.tsx:92 | with no guide, or a step of −1, past the end or NaN, no key is highlighted |
| PianoApp.HighlightOnlyOnKeyboard | App.tsx:92 | a key is lit only when the current note exists, has a known name and an octave in 3..5 |
| PianoApp.CurrentNoteHighlighted | App.tsx:92 | a current note on the keyboard lights the key at (octave − 3)·12 + its name's position |
| PianoApp.InitialKeepsInv | App.tsx:11-20 | the initial state satisfies the App invariant |
| PianoApp.PlayWithKeepsInv | App.tsx:28-31 | handlePlayNote keeps the App invariant |
| PianoApp.TickKeepsInv | App.tsx:68-74 | an auto-play tick keeps the App invariant |
| PianoApp.ApplyKeepsInv | App.tsx:28-82 | every event keeps the App invariant |
| PianoApp.RunKeepsInv | App.tsx:28-82 | every sequence of events keeps the App invariant |
| PianoApp.PlayNoteMarksKey | App.tsx:28-31 | handlePlayNote adds exactly its key to the held notes |
| PianoApp.PlayNoteWithoutContextChangesNothing | App.tsx:28-31 | when playNote throws, handlePlayNote changes nothing |
| PianoApp.StopNoteUnmarksKey | App.tsx:33-40 | handleStopNote removes exactly its key from the held notes |
| PianoApp.PressAndReleaseRestoresOthers | App.tsx:28-40 | press then release leaves the held notes as before, minus that key |
| PianoApp.ProcessUrlOutcomes | App.tsx:42-58 | an empty URL or a failed analysis changes nothing; a success sets the guide and step 0 and changes nothing else: timers, sound, held keys and the instrument stay as they were |
| PianoApp.ProcessedGuideLightsFirstNote | App.tsx:49-51 | after a successful analysis, the first note's key is lit when it is on the keyboard |
| PianoApp.NextStepPresses | App.tsx:60-63 | k nextStep events change nothing without a guide; with one they change only the step, to k presses of `(prev + 1) % len`, and from note i they land on note (i + k) mod len |
| PianoApp.StopAutoPlayIdempotent | App.tsx:77-82 | stopAutoPlay clears only the interval in timerRef and nulls it, leaving sounding voices, queued stops, the step and held keys as they were; a second call does nothing |
| PianoApp.StartAutoPlayFromZero | App.tsx:65-68 | without a guide nothing happens; with one, a new interval starts at cursor 0 over the guide and the instrument of the moment, other intervals and the step unchanged |
| PianoApp.TickOnEmptyNotes | App.tsx:69-70 | a tick over an empty notes list changes nothing |
| PianoApp.TickPlaysCursorNote | App.tsx:68-74 | a tick plays the cursor's note, queues its 400 ms stop, sets the step to the cursor, and advances the cursor, wrapping to 0 after the last note |
| PianoApp.OtherEventsLeaveInterval | App.tsx:65-82 | every event other than interval h firing, or a stopAutoPlay that clears h, leaves interval h (cursor, notes, instrument) as it is and keeps the audio context |
| PianoApp.EventAdvancesCursor | App.tsx:68-74 | one event moves the cursor of h on by one (mod len) exactly when h fires, and keeps the invariant and the context |
| PianoApp.RunAdvancesCursor | App.tsx:67-73 | with a non-empty guide captured by h and a context available, over any run without stopAutoPlay, whatever else fires in between, h keeps its notes and instrument and its cursor has advanced once per firing of h, mod len |
| PianoApp.TickKeepsContext | App.tsx:68-74 | a tick never takes the audio context away |
| PianoApp.AutoPlayRunTick | App.tsx:68-74 | after any run without stopAutoPlay in which h fired k times, the next firing of h lights step k mod len, holds that note's key, plays it with the captured instrument, queues its 400 ms stop last and moves the cursor to (k + 1) mod len |
| PianoApp.TickThenStopReleases | App.tsx:71 | when a tick's stop fires, the key is no longer held and its voice gets the release ramp and one cleanup |
| PianoApp.OrganWalkThrough | App.tsx:65-75 | organ, guide C4, E4, G4: the first tick lights step 0 and sounds a 5-oscillator C4; its stop and cleanup silence and unregister C4; the second tick lights step 1 and sounds a 5-oscillator E4 |
| PianoApp.SecondStartOrphansFirst | App.tsx:65-82 | after two starts, the first interval is still live and stopAutoPlay leaves it live |
| PianoApp.OrphanStaysOrphan | App.tsx:77-82 | an interval not in timerRef stays live and out of timerRef under any event |
| PianoApp.OrphanRunsForever | App.tsx:77-82 | an interval not in timerRef is never cleared, whatever events follow |
| PianoApp.App.constructor | App.tsx:11-20 | the App starts with piano, no guide, step −1, nothing held, no timers |
| PianoApp.App.PlayWith | App.tsx:28-31 | handlePlayNote with a given instrument, as `AfterPlayWith`; reports whether a context existed |
| PianoApp.App.HandlePlayNote | App.tsx:28-31 | handlePlayNote with the selected instrument, as `AfterHandlePlayNote` |
| PianoApp.App.HandleStopNote | App.tsx:33-40 | handleStopNote, as `AfterHandleStopNote` |
| PianoApp.App.SetInstrument | App.tsx:125-136 | choosing an instrument changes only the instrument |
| PianoApp.App.HandleProcessUrl | App.tsx:42-58 | handleProcessUrl once the analysis has settled, as `AfterProcessUrl` |
| PianoApp.App.NextStep | App.tsx:60-63 | nextStep, as `AfterNextStep` |
| PianoApp.App.StartAutoPlay | App.tsx:65-75 | startAutoPlay, as `AfterStartAutoPlay` |
| PianoApp.App.StopAutoPlay | App.tsx:77-82 | stopAutoPlay, as `AfterStopAutoPlay` |
| PianoApp.App.Tick | App.tsx:68-74 | one firing of interval h, as `AfterTick` |
| PianoApp.App.FireStop | App.tsx:71 | the oldest 400 ms stop fires and calls handleStopNote, as `AfterStopTimer` |
| PianoApp.App.RenderKeys | App.tsx:84-109 | the keys built by the nested loops are exactly `Keyboard` of the current guide, step and held notes |

The transition functions carry no contract of their own; the lemmas above state what they mean. Each models these lines:

- `Audio.SemitoneOffset`: `getFrequency`, services/audioService.ts:18-22 (the exponent, without the floating-point power).
- `Notes.Key`: the template `${note}${octave}`, services/audioService.ts:29 and :84, App.tsx:91.
- `Audio.AfterInitContext`: `initContext`, services/audioService.ts:9-16.
- `Audio.AfterPlayNote`: `playNote`, services/audioService.ts:24-81.
- `Audio.AfterStopNote`: `stopNote` up to its timeout, services/audioService.ts:83-93.
- `Audio.AfterCleanup`: the 150 ms timeout body, services/audioService.ts:94-100.
- `PianoApp.StepAfter`: the updater `(prev + 1) % guide.notes.length`, App.tsx:62.
- `PianoApp.AfterStartAutoPlay`: `startAutoPlay` without its timer body, App.tsx:65-68.
- `PianoApp.AfterTick`: one firing of the interval body, App.tsx:68-74.
- `PianoApp.AfterStopAutoPlay`: `stopAutoPlay`, App.tsx:77-82.
- `PianoApp.Highlighted`: `isHighlighted`, App.tsx:92.
- `PianoApp.Keyboard`: `renderKeys`, App.tsx:84-109.

## Left out

- Real sound. Frequencies in hertz (only the semitone offset is kept), the curve shapes, `currentTime`, and the graph connections to the destination are not modelled. Nor is the old gain node's fade when a key is retriggered.
- Wall-clock time. The three kinds of timers (the 600 ms interval, the 400 ms stops, the 150 ms cleanups) are independent queues. Any interleaving of their firings is an event sequence, and the auto-play lemmas hold for every interleaving; which interleavings real time allows is not modelled. `PianoApp.OrganWalkThrough` fixes one order, the one real time gives.
- `ctx.resume()` is asynchronous. `initContext` only records a resume request, and `ResumeSettles` is a separate event.
- The song analysis service is a parameter: its settled result, or None when it threw. `services/geminiService.ts` is not part of this model.
- `extractVideoId`, `videoId`, `loading`, the URL input state, the embedded player and the JSX layout are not modelled. `components/PianoKey.tsx` is not part of this model: `RenderKeys` returns the properties handed to each key.
- React's batching of state updates is not modelled: updates apply in order. `alert` and `console.error` on a failed analysis are not modelled.
- Octaves are integers. A fractional or NaN octave from a malformed guide is not modelled, nor is JavaScript's exponent notation for octaves of magnitude 10^21 or more inside a key.

=== FILE: audio.dfy ===
/**
 * The tone engine of services/audioService.ts.
 *
 * The Web Audio graph is replaced by plain records: an oscillator is its identity, waveform,
 * pitch (semitone offset of the voice and a frequency multiplier), detune in cents and the level
 * of its own gain stage; a gain node is its identity and its automation schedule. Which
 * oscillators are still running is a set of identities. The 150 ms `setTimeout` cleanups are an
 * explicit queue in firing order (they all have the same delay), fired by `AfterCleanup`.
 *
 * The engine's whole state is the value `Engine`; the functions `After…` say what each
 * operation does to it, the lemmas say what that means, and the class `AudioService` at the end
 * updates its fields in place and is proved to follow those functions.
 */
module Audio {
  import opened Wrappers
  import opened Types
  import opened Notes

  // ------------------------------------------------------------------------------------------
  // Pitch
  // ------------------------------------------------------------------------------------------

  /** JavaScript's `Array.prototype.indexOf`: the first position of `x`, or -1. */
  function IndexOf(names: seq<string>, x: string): int
  {
    if |names| == 0 then -1
    else if names[0] == x then 0
    else
      var t := IndexOf(names[1..], x);
      if t == -1 then -1 else t + 1
  }

  /** The first occurrence, or -1 exactly when there is none. */
  lemma {:induction false} IndexOfSpec(names: seq<string>, x: string)
    ensures var r := IndexOf(names, x);
      && -1 <= r < |names|
      && (r == -1 <==> x !in names)
      && (r >= 0 ==> names[r] == x && x !in names[..r])
  {
    if |names| > 0 && names[0] != x {
      IndexOfSpec(names[1..], x);
      var t := IndexOf(names[1..], x);
      assert names == [names[0]] + names[1..];
      if t >= 0 {
        assert names[..t + 1] == [names[0]] + names[1..][..t];
      }
    }
  }

  /**
   * The exponent of `440 * 2^(offset / 12)`: the position of the note name counted from C,
   * plus twelve per octave above 4. The frequency in hertz itself is not modelled.
   */
  function SemitoneOffset(note: string, octave: int): int
  {
    IndexOf(NoteNames, note) + (octave - 4) * 12
  }

  /** The twelve names, each at its own position. */
  lemma IndexOfNoteName(i: int)
    requires 0 <= i < |NoteNames|
    ensures IndexOf(NoteNames, NoteNames[i]) == i
  {
    NoteNamesAreDistinct();
    IndexOfSpec(NoteNames, NoteNames[i]);
  }

  /** The offset is measured from C4, so C4 (not A4) sounds at 440 Hz; A4 is nine semitones up. */
  lemma ReferencePitchIsC4()
    ensures SemitoneOffset("C", 4) == 0
    ensures SemitoneOffset("A", 4) == 9
  {
    IndexOfNoteName(0);
    IndexOfNoteName(9);
  }

  /** Position in the table plus twelve per octave, for every recognised note. */
  lemma RecognisedNoteOffset(i: int, octave: int)
    requires 0 <= i < |NoteNames|
    ensures SemitoneOffset(NoteNames[i], octave) == i + (octave - 4) * 12
    ensures SemitoneOffset(NoteNames[i], octave + 1) == SemitoneOffset(NoteNames[i], octave) + 12
  {
    IndexOfNoteName(i);
  }

  /** An unrecognised name is not an error: it gets index -1, the pitch of B one octave lower. */
  lemma UnknownNoteSoundsAsB(note: string, octave: int)
    requires note !in NoteNames
    ensures SemitoneOffset(note, octave) == -1 + (octave - 4) * 12
    ensures SemitoneOffset(note, octave) == SemitoneOffset("B", octave - 1)
  {
    IndexOfSpec(NoteNames, note);
    IndexOfNoteName(11);
    assert NoteNames[11] == "B";
  }

  /** Distinct recognised notes never share a pitch. */
  lemma OffsetInjective(n1: string, o1: int, n2: string, o2: int)
    requires n1 in NoteNames && n2 in NoteNames
    requires SemitoneOffset(n1, o1) == SemitoneOffset(n2, o2)
    ensures n1 == n2 && o1 == o2
  {
    IndexOfSpec(NoteNames, n1);
    IndexOfSpec(NoteNames, n2);
    var i1, i2 := IndexOf(NoteNames, n1), IndexOf(NoteNames, n2);
    assert (o1 - o2) * 12 == i2 - i1;
    assert o1 == o2;
  }

  // ------------------------------------------------------------------------------------------
  // Voices
  // ------------------------------------------------------------------------------------------

  datatype Waveform = Sine | Triangle

  /**
   * One oscillator node. It sounds at the voice's pitch times `multiplier`, shifted by
   * `detuneCents`; `level` is the gain of the per-oscillator gain stage, when it has one.
   */
  datatype Oscillator = Oscillator(
    id: nat,
    waveform: Waveform,
    semitones: int,
    multiplier: nat,
    detuneCents: int,
    level: Option<real>)

  /** One gain automation event; times are milliseconds after the call that scheduled it. */
  datatype GainEvent =
    | SetValueAt(value: real, atMs: nat)
    | LinearRampTo(value: real, atMs: nat)
    | ExponentialRampTo(value: real, atMs: nat)
    | HoldCurrentAt(atMs: nat)  // setValueAtTime(gain.value, now): keep whatever value is reached

  /** A voice's master gain node and the automation scheduled on it. */
  datatype GainNode = GainNode(id: nat, automation: seq<GainEvent>)

  /** Silent start, 10 ms linear attack to 0.4, exponential decay to 0.01 at 1.5 s. */
  const PianoEnvelope: seq<GainEvent> :=
    [SetValueAt(0.0, 0), LinearRampTo(0.4, 10), ExponentialRampTo(0.01, 1500)]

  /** Silent start, 50 ms linear attack to 0.3, then the level is held: no decay event. */
  const OrganEnvelope: seq<GainEvent> := [SetValueAt(0.0, 0), LinearRampTo(0.3, 50)]

  /** What stopNote leaves on a gain: hold the current value, exponential ramp to 0.001 in 100 ms. */
  const ReleaseEnvelope: seq<GainEvent> := [HoldCurrentAt(0), ExponentialRampTo(0.001, 100)]

  /** The organ's drawbars: multiples of the fundamental, in the order they are built. */
  const Harmonics: seq<nat> := [1, 2, 3, 4, 6]

  /** A sine at the fundamental and a triangle at the same frequency detuned by +4 cents. */
  function PianoOscillators(semitones: int, firstId: nat): seq<Oscillator>
  {
    [Oscillator(firstId, Sine, semitones, 1, 0, None),
     Oscillator(firstId + 1, Triangle, semitones, 1, 4, None)]
  }

  /** The organ's per-oscillator gain: 0.2 / (position + 1), by position in `Harmonics`. */
  function OrganLevel(position: nat): real
  {
    0.2 / (position + 1) as real
  }

  function OrganOscillator(semitones: int, firstId: nat, i: nat): Oscillator
    requires i < |Harmonics|
  {
    Oscillator(firstId + i, Sine, semitones, Harmonics[i], 0, Some(OrganLevel(i)))
  }

  /** One sine per harmonic, each through its own gain stage. */
  function OrganOscillators(semitones: int, firstId: nat): seq<Oscillator>
  {
    seq(|Harmonics|, i requires 0 <= i < |Harmonics| => OrganOscillator(semitones, firstId, i))
  }

  function Recipe(instrument: InstrumentType, semitones: int, firstId: nat): seq<Oscillator>
  {
    if instrument == Piano then PianoOscillators(semitones, firstId)
    else OrganOscillators(semitones, firstId)
  }

  function Envelope(instrument: InstrumentType): seq<GainEvent>
  {
    if instrument == Piano then PianoEnvelope else OrganEnvelope
  }

  /** The identities of a list of oscillators. */
  function Ids(oscs: seq<Oscillator>): set<nat>
  {
    set o | o in oscs :: o.id
  }

  lemma PianoVoiceShape(semitones: int, firstId: nat)
    ensures var v := PianoOscillators(semitones, firstId);
      && |v| == 2
      && v[0].waveform == Sine && v[0].multiplier == 1 && v[0].detuneCents == 0
      && v[1].waveform == Triangle && v[1].multiplier == 1 && v[1].detuneCents == 4
      && v[0].semitones == v[1].semitones == semitones
      && v[0].level.None? && v[1].level.None?
  {
  }

  /** Five sines at 1, 2, 3, 4 and 6 times the fundamental, attenuated by position. */
  lemma OrganVoiceShape(semitones: int, firstId: nat)
    ensures var v := OrganOscillators(semitones, firstId);
      && |v| == 5
      && (forall i | 0 <= i < 5 :: v[i].waveform == Sine && v[i].semitones == semitones
            && v[i].detuneCents == 0 && v[i].level == Some(0.2 / (i + 1) as real))
      && v[0].multiplier == 1 && v[1].multiplier == 2 && v[2].multiplier == 3
      && v[3].multiplier == 4 && v[4].multiplier == 6
      && v[4].level == Some(0.04)  // the sixth harmonic gets 0.2 / 5, not 0.2 / 6
      && (forall i, j | 0 <= i < j < 5 :: v[j].level.value < v[i].level.value)
  {
  }

  /** A voice's oscillators take the identities `firstId`, `firstId + 1`, … in order. */
  lemma RecipeIds(instrument: InstrumentType, semitones: int, firstId: nat)
    ensures var v := Recipe(instrument, semitones, firstId);
      && |v| == (if instrument == Piano then 2 else 5)
      && (forall i | 0 <= i < |v| :: v[i].id == firstId + i)
      && (forall x :: x in Ids(v) <==> firstId <= x < firstId + |v|)
  {
    var v := Recipe(instrument, semitones, firstId);
    forall x | firstId <= x < firstId + |v| ensures x in Ids(v) {
      assert v[x - firstId].id == x;
    }
  }

  // ------------------------------------------------------------------------------------------
  // The engine's state and its operations
  // ------------------------------------------------------------------------------------------

  /** The audio context, by the one attribute the engine reads. */
  datatype ContextState = Suspended | Running

  /** A deferred cleanup: the key it deletes and the oscillators captured when it was queued. */
  datatype Cleanup = Cleanup(key: string, captured: seq<Oscillator>)

  /**
   * `platform` is what `new AudioContext()` yields in this browser: a context in the given
   * state, or None when the constructor is missing or throws. `contextsCreated` counts the
   * contexts made; `resumeRequests` counts calls to `resume()`. `sounding` holds the identities
   * of oscillators started and not yet stopped; `nextId` is the next node identity.
   */
  datatype Engine = Engine(
    platform: Option<ContextState>,
    ctx: Option<ContextState>,
    contextsCreated: nat,
    resumeRequests: nat,
    oscillators: map<string, seq<Oscillator>>,
    gainNodes: map<string, GainNode>,
    sounding: set<nat>,
    pending: seq<Cleanup>,
    nextId: nat)

  function NewEngine(platform: Option<ContextState>): (e: Engine)
    ensures Inv(e)
  {
    Engine(platform, None, 0, 0, map[], map[], {}, [], 0)
  }

  /**
   * The engine's invariant: the two registries hold the same keys; nothing is registered,
   * queued or sounding before a context exists, and at most one context is ever made; every
   * sounding oscillator got its identity before `nextId`.
   */
  ghost predicate Inv(e: Engine)
  {
    && e.oscillators.Keys == e.gainNodes.Keys
    && (e.ctx.None? ==>
          e.contextsCreated == 0 && e.resumeRequests == 0 && e.oscillators == map[]
          && e.pending == [] && e.sounding == {})
    && (e.ctx.Some? ==> e.contextsCreated == 1)
    && (forall x | x in e.sounding :: x < e.nextId)
  }

  /** initContext: create the context if there is none, then ask a suspended one to resume. */
  function AfterInitContext(e: Engine): (r: Engine)
  {
    var created :=
      if e.ctx.None? && e.platform.Some?
      then e.(ctx := e.platform, contextsCreated := e.contextsCreated + 1)
      else e;
    if created.ctx == Some(Suspended)
    then created.(resumeRequests := created.resumeRequests + 1)
    else created
  }

  /** The browser settles a `resume()` request: the context is running from now on. */
  function AfterResume(e: Engine): (r: Engine)
  {
    if e.ctx.Some? then e.(ctx := Some(Running)) else e
  }

  /** Whether initContext leaves a context behind (otherwise it throws). */
  predicate CanPlay(e: Engine)
  {
    e.ctx.Some? || e.platform.Some?
  }

  /**
   * stopNote: when the key has oscillators, a gain and there is a context, replace the gain's
   * automation by the release ramp and queue one cleanup capturing the current oscillators.
   * The registry entries stay in place until that cleanup fires.
   */
  function AfterStopNote(e: Engine, note: string, octave: int): (r: Engine)
  {
    var id := Key(note, octave);
    if id in e.oscillators && id in e.gainNodes && e.ctx.Some? then
      e.(gainNodes := e.gainNodes[id := e.gainNodes[id].(automation := ReleaseEnvelope)],
         pending := e.pending + [Cleanup(id, e.oscillators[id])])
    else e
  }

  /**
   * playNote: initContext; without a context, nothing (the constructor threw); otherwise
   * stopNote on the same key, then a fresh gain node and the instrument's oscillators, all
   * started, registered under the key in place of whatever was there.
   */
  function AfterPlayNote(e: Engine, note: string, octave: int, instrument: InstrumentType): (r: Engine)
  {
    var e1 := AfterInitContext(e);
    if e1.ctx.None? then e1
    else
      var id := Key(note, octave);
      var e2 := AfterStopNote(e1, note, octave);
      var gainId := e2.nextId;
      var oscs := Recipe(instrument, SemitoneOffset(note, octave), gainId + 1);
      e2.(oscillators := e2.oscillators[id := oscs],
          gainNodes := e2.gainNodes[id := GainNode(gainId, Envelope(instrument))],
          sounding := e2.sounding + Ids(oscs),
          nextId := gainId + 1 + |oscs|)
  }

  /**
   * The oldest queued cleanup fires: it stops the oscillators it captured (stopping one that
   * is already stopped throws, and the error is swallowed) and deletes whatever is registered
   * under its key now.
   */
  function AfterCleanup(e: Engine): (r: Engine)
    requires e.pending != []
  {
    var c := e.pending[0];
    e.(sounding := e.sounding - Ids(c.captured),
       oscillators := e.oscillators - {c.key},
       gainNodes := e.gainNodes - {c.key},
       pending := e.pending[1..])
  }

  // ------------------------------------------------------------------------------------------
  // The invariant is kept
  // ------------------------------------------------------------------------------------------

  lemma InitContextKeepsInv(e: Engine)
    requires Inv(e)
    ensures Inv(AfterInitContext(e)) && Inv(AfterResume(e))
  {
  }

  lemma StopNoteKeepsInv(e: Engine, note: string, octave: int)
    requires Inv(e)
    ensures Inv(AfterStopNote(e, note, octave))
  {
  }

  lemma PlayNoteKeepsInv(e: Engine, note: string, octave: int, instrument: InstrumentType)
    requires Inv(e)
    ensures Inv(AfterPlayNote(e, note, octave, instrument))
  {
    if CanPlay(e) {
      PlayNoteBase(e, note, octave);
      var e2 := AfterStopNote(AfterInitContext(e), note, octave);
      var oscs := Recipe(instrument, SemitoneOffset(note, octave), e2.nextId + 1);
      RecipeIds(instrument, SemitoneOffset(note, octave), e2.nextId + 1);
      var r := AfterPlayNote(e, note, octave, instrument);
      assert r.sounding == e2.sounding + Ids(oscs) && r.nextId == e2.nextId + 1 + |oscs|;
    }
  }

  lemma CleanupKeepsInv(e: Engine)
    requires Inv(e) && e.pending != []
    ensures Inv(AfterCleanup(e))
  {
  }

  // ------------------------------------------------------------------------------------------
  // What the operations mean
  // ------------------------------------------------------------------------------------------

  /** The context is made once, kept afterwards, and resume is asked exactly when it is suspended. */
  lemma InitContextOnce(e: Engine)
    requires Inv(e)
    ensures var r := AfterInitContext(e);
      && (e.ctx.Some? ==> r.ctx == e.ctx && r.contextsCreated == e.contextsCreated)
      && (e.ctx.None? ==> r.ctx == e.platform)
      && r.contextsCreated <= 1
      && AfterInitContext(r).contextsCreated == r.contextsCreated
      && AfterInitContext(r).ctx == r.ctx
      && r.resumeRequests == e.resumeRequests + (if r.ctx == Some(Suspended) then 1 else 0)
      && r.oscillators == e.oscillators && r.gainNodes == e.gainNodes && r.pending == e.pending
  {
  }

  /** Without a context, playNote changes nothing. */
  lemma PlayNoteWithoutContext(e: Engine, note: string, octave: int, instrument: InstrumentType)
    requires Inv(e) && !CanPlay(e)
    ensures AfterPlayNote(e, note, octave, instrument) == e
  {
  }

  /** Once a context can be had, it can still be had after playNote, which then has made it. */
  lemma PlayNoteKeepsContext(e: Engine, note: string, octave: int, instrument: InstrumentType)
    requires CanPlay(e)
    ensures AfterPlayNote(e, note, octave, instrument).ctx.Some?
    ensures CanPlay(AfterPlayNote(e, note, octave, instrument))
  {
  }

  /** playNote with a context, one step after the other. */
  lemma PlayNoteSteps(e: Engine, note: string, octave: int, instrument: InstrumentType)
    requires CanPlay(e)
    ensures var e2 := AfterStopNote(AfterInitContext(e), note, octave);
      var gainId := e2.nextId;
      var oscs := Recipe(instrument, SemitoneOffset(note, octave), gainId + 1);
      AfterPlayNote(e, note, octave, instrument)
        == e2.(oscillators := e2.oscillators[Key(note, octave) := oscs],
               gainNodes := e2.gainNodes[Key(note, octave) := GainNode(gainId, Envelope(instrument))],
               sounding := e2.sounding + Ids(oscs),
               nextId := gainId + 1 + |oscs|)
  {
  }

  /** The state playNote builds on: initContext has run and stopNote has released the key. */
  lemma PlayNoteBase(e: Engine, note: string, octave: int)
    requires Inv(e) && CanPlay(e)
    ensures var e2 := AfterStopNote(AfterInitContext(e), note, octave);
      && Inv(e2) && e2.ctx.Some?
      && e2.oscillators == e.oscillators && e2.sounding == e.sounding && e2.nextId == e.nextId
      && e2.gainNodes.Keys == e.gainNodes.Keys
      && (forall k | k in e.gainNodes && k != Key(note, octave) :: e2.gainNodes[k] == e.gainNodes[k])
      && var id := Key(note, octave);
      && e2.pending == e.pending + (if id in e.oscillators then [Cleanup(id, e.oscillators[id])] else [])
  {
    InitContextKeepsInv(e);
    StopNoteKeepsInv(AfterInitContext(e), note, octave);
  }

  /**
   * playNote registers the voice it just built under the key: two oscillators for the piano,
   * five for the organ, at the note's pitch, all newly started, with the instrument's envelope.
   */
  lemma PlayNoteRegistersVoice(e: Engine, note: string, octave: int, instrument: InstrumentType)
    requires Inv(e) && CanPlay(e)
    ensures var r := AfterPlayNote(e, note, octave, instrument);
      var id := Key(note, octave);
      && id in r.oscillators && id in r.gainNodes
      && |r.oscillators[id]| == (if instrument == Piano then 2 else 5)
      && (forall o | o in r.oscillators[id] :: o.semitones == SemitoneOffset(note, octave))
      && r.oscillators[id] == Recipe(instrument, SemitoneOffset(note, octave), e.nextId + 1)
      && r.gainNodes[id].automation == Envelope(instrument)
      && Ids(r.oscillators[id]) !! e.sounding
      && r.sounding == e.sounding + Ids(r.oscillators[id])
  {
    PlayNoteBase(e, note, octave);
    PlayNoteSteps(e, note, octave, instrument);
    var e2 := AfterStopNote(AfterInitContext(e), note, octave);
    var semis := SemitoneOffset(note, octave);
    RecipeIds(instrument, semis, e2.nextId + 1);
    var v := Recipe(instrument, semis, e2.nextId + 1);
    var r := AfterPlayNote(e, note, octave, instrument);
    assert r.oscillators[Key(note, octave)] == v;
    assert forall o | o in v :: o.semitones == semis;
    forall x | x in Ids(v) ensures x !in e.sounding {
      assert x >= e2.nextId + 1;
    }
  }

  /**
   * playNote touches no other key, and an earlier voice under the same key is released
   * (one cleanup queued for it), never stacked.
   */
  lemma PlayNoteLeavesOtherKeys(e: Engine, note: string, octave: int, instrument: InstrumentType)
    requires Inv(e) && CanPlay(e)
    ensures var r := AfterPlayNote(e, note, octave, instrument);
      var id := Key(note, octave);
      && (forall k | k != id :: (k in r.oscillators <==> k in e.oscillators)
                              && (k in e.oscillators ==> r.oscillators[k] == e.oscillators[k]))
      && (forall k | k != id :: (k in r.gainNodes <==> k in e.gainNodes)
                              && (k in e.gainNodes ==> r.gainNodes[k] == e.gainNodes[k]))
      && r.pending == e.pending + (if id in e.oscillators then [Cleanup(id, e.oscillators[id])] else [])
  {
    PlayNoteBase(e, note, octave);
  }

  /**
   * stopNote does nothing without a registered voice; otherwise it only swaps the gain's
   * automation for the release ramp and queues exactly one cleanup for that voice: it never
   * touches the context and uses up no identities.
   */
  lemma StopNoteReleases(e: Engine, note: string, octave: int)
    requires Inv(e)
    ensures var r := AfterStopNote(e, note, octave);
      var id := Key(note, octave);
      && (id !in e.oscillators ==> r == e)
      && (id in e.oscillators ==>
            r == e.(gainNodes := e.gainNodes[id := GainNode(e.gainNodes[id].id, ReleaseEnvelope)],
                    pending := e.pending + [Cleanup(id, e.oscillators[id])]))
  {
  }

  /**
   * A cleanup deletes by key: whatever is registered under its key when it fires is gone,
   * whether or not it is the voice it was queued for; only the captured oscillators stop.
   */
  lemma CleanupDeletesByKey(e: Engine)
    requires Inv(e) && e.pending != []
    ensures var r := AfterCleanup(e);
      var c := e.pending[0];
      && c.key !in r.oscillators && c.key !in r.gainNodes
      && (forall k | k != c.key :: (k in r.oscillators <==> k in e.oscillators))
      && (forall k | k != c.key && k in r.oscillators :: r.oscillators[k] == e.oscillators[k])
      && (forall k | k != c.key :: (k in r.gainNodes <==> k in e.gainNodes))
      && (forall k | k != c.key && k in r.gainNodes :: r.gainNodes[k] == e.gainNodes[k])
      && r.ctx == e.ctx && r.nextId == e.nextId
      && r.sounding == e.sounding - Ids(c.captured)
      && r.pending == e.pending[1..]
  {
  }

  /** Stopping twice queues two cleanups, and once both have fired the engine is as after one. */
  lemma DoubleStopIsBenign(e: Engine, note: string, octave: int)
    requires Inv(e) && e.pending == [] && Key(note, octave) in e.oscillators
    ensures var once := AfterStopNote(e, note, octave);
      var twice := AfterStopNote(once, note, octave);
      && |twice.pending| == 2
      && AfterCleanup(AfterCleanup(twice)) == AfterCleanup(once)
  {
    var once := AfterStopNote(e, note, octave);
    var twice := AfterStopNote(once, note, octave);
    var c := Cleanup(Key(note, octave), e.oscillators[Key(note, octave)]);
    assert twice.pending == [c, c];
    var a := AfterCleanup(twice);
    var b := AfterCleanup(a);
    assert b.sounding == e.sounding - Ids(c.captured);
    assert b.oscillators == AfterCleanup(once).oscillators;
    assert b.gainNodes == AfterCleanup(once).gainNodes;
  }

  /**
   * Released, then replayed before the 150 ms cleanup: the cleanup deletes the new
   * registration, so once the queue drains the key is empty, the new voice keeps sounding,
   * and stopNote can no longer reach it.
   */
  lemma RetriggerWithinReleaseLosesVoice(
    e: Engine, note: string, octave: int, first: InstrumentType, second: InstrumentType)
    requires Inv(e) && CanPlay(e) && e.pending == [] && Key(note, octave) !in e.oscillators
    ensures var id := Key(note, octave);
      var e1 := AfterPlayNote(e, note, octave, first);
      var e2 := AfterStopNote(e1, note, octave);
      var e3 := AfterPlayNote(e2, note, octave, second);
      && |e3.pending| == 2
      && var e4 := AfterCleanup(e3);
      && var e5 := AfterCleanup(e4);
      && id !in e4.oscillators && id !in e5.oscillators && id !in e5.gainNodes
      && e5.pending == []
      && |e3.oscillators[id]| > 0
      && Ids(e3.oscillators[id]) <= e5.sounding
      && Ids(e1.oscillators[id]) !! e5.sounding
      && AfterStopNote(e5, note, octave) == e5
  {
    var id := Key(note, octave);
    PlayNoteRegistersVoice(e, note, octave, first);
    PlayNoteLeavesOtherKeys(e, note, octave, first);
    PlayNoteKeepsInv(e, note, octave, first);
    var e1 := AfterPlayNote(e, note, octave, first);
    var v1 := e1.oscillators[id];
    StopNoteReleases(e1, note, octave);
    StopNoteKeepsInv(e1, note, octave);
    var e2 := AfterStopNote(e1, note, octave);
    assert e2.pending == [Cleanup(id, v1)] && e2.oscillators[id] == v1;
    PlayNoteRegistersVoice(e2, note, octave, second);
    PlayNoteLeavesOtherKeys(e2, note, octave, second);
    var e3 := AfterPlayNote(e2, note, octave, second);
    var v3 := e3.oscillators[id];
    assert e3.pending == [Cleanup(id, v1), Cleanup(id, v1)];
    assert Ids(v3) !! Ids(v1) by {
      assert Ids(v1) <= e2.sounding;
    }
    var e4 := AfterCleanup(e3);
    var e5 := AfterCleanup(e4);
    assert e5.sounding == e3.sounding - Ids(v1);
  }

  /**
   * Two playNote calls with no stopNote in between: the second's own stopNote queues a cleanup
   * that later deletes the second voice's registration while it keeps sounding.
   */
  lemma PlayTwiceLosesRegistration(
    e: Engine, note: string, octave: int, first: InstrumentType, second: InstrumentType)
    requires Inv(e) && CanPlay(e) && e.pending == [] && Key(note, octave) !in e.oscillators
    ensures var id := Key(note, octave);
      var e1 := AfterPlayNote(e, note, octave, first);
      var e2 := AfterPlayNote(e1, note, octave, second);
      && |e2.pending| == 1
      && var e3 := AfterCleanup(e2);
      && id !in e3.oscillators && id !in e3.gainNodes && e3.pending == []
      && Ids(e2.oscillators[id]) <= e3.sounding
      && Ids(e1.oscillators[id]) !! e3.sounding
  {
    var id := Key(note, octave);
    PlayNoteRegistersVoice(e, note, octave, first);
    PlayNoteLeavesOtherKeys(e, note, octave, first);
    PlayNoteKeepsInv(e, note, octave, first);
    var e1 := AfterPlayNote(e, note, octave, first);
    var v1 := e1.oscillators[id];
    PlayNoteRegistersVoice(e1, note, octave, second);
    PlayNoteLeavesOtherKeys(e1, note, octave, second);
    var e2 := AfterPlayNote(e1, note, octave, second);
    assert e2.pending == [Cleanup(id, v1)];
    assert Ids(e2.oscillators[id]) !! Ids(v1);
  }

  /** When the cleanup fires before the replay, the replayed voice stays registered. */
  lemma RetriggerAfterReleaseKeepsVoice(
    e: Engine, note: string, octave: int, first: InstrumentType, second: InstrumentType)
    requires Inv(e) && CanPlay(e) && e.pending == [] && Key(note, octave) !in e.oscillators
    ensures var id := Key(note, octave);
      var e1 := AfterPlayNote(e, note, octave, first);
      var e2 := AfterStopNote(e1, note, octave);
      && e2.pending != []
      && var e3 := AfterCleanup(e2);
      && var e4 := AfterPlayNote(e3, note, octave, second);
      && id in e4.oscillators && e4.pending == []
      && Ids(e1.oscillators[id]) !! e4.sounding
      && Ids(e4.oscillators[id]) <= e4.sounding
  {
    var id := Key(note, octave);
    PlayNoteRegistersVoice(e, note, octave, first);
    PlayNoteLeavesOtherKeys(e, note, octave, first);
    PlayNoteKeepsInv(e, note, octave, first);
    var e1 := AfterPlayNote(e, note, octave, first);
    var v1 := e1.oscillators[id];
    StopNoteReleases(e1, note, octave);
    StopNoteKeepsInv(e1, note, octave);
    var e2 := AfterStopNote(e1, note, octave);
    assert e2.pending == [Cleanup(id, v1)];
    CleanupKeepsInv(e2);
    var e3 := AfterCleanup(e2);
    assert e3.pending == [] && id !in e3.oscillators;
    assert Ids(v1) !! e3.sounding;
    PlayNoteRegistersVoice(e3, note, octave, second);
    PlayNoteLeavesOtherKeys(e3, note, octave, second);
  }

  // ------------------------------------------------------------------------------------------
  // The service object
  // ------------------------------------------------------------------------------------------

  /** The `AudioService` singleton: the engine's state as fields updated in place. */
  class AudioService {
    const platform: Option<ContextState>
    var ctx: Option<ContextState>
    ghost var contextsCreated: nat
    var resumeRequests: nat
    var oscillators: map<string, seq<Oscillator>>
    var gainNodes: map<string, GainNode>
    var sounding: set<nat>
    var pending: seq<Cleanup>
    var nextId: nat

    ghost function State(): Engine
      reads this
    {
      Engine(platform, ctx, contextsCreated, resumeRequests, oscillators, gainNodes,
             sounding, pending, nextId)
    }

    ghost predicate Valid()
      reads this
    {
      Inv(State())
    }

    constructor (platform: Option<ContextState>)
      ensures Valid() && State() == NewEngine(platform)
    {
      this.platform := platform;
      ctx := None;
      contextsCreated := 0;
      resumeRequests := 0;
      oscillators := map[];
      gainNodes := map[];
      sounding := {};
      pending := [];
      nextId := 0;
    }

    method InitContext()
      requires Valid()
      modifies this
      ensures Valid() && State() == AfterInitContext(old(State()))
    {
      InitContextKeepsInv(State());
      if ctx.None? && platform.Some? {
        ctx := platform;
        contextsCreated := contextsCreated + 1;
      }
      if ctx == Some(Suspended) {
        resumeRequests := resumeRequests + 1;
      }
    }

    method ResumeSettled()
      requires Valid()
      modifies this
      ensures Valid() && State() == AfterResume(old(State()))
    {
      InitContextKeepsInv(State());
      if ctx.Some? {
        ctx := Some(Running);
      }
    }

    /**
     * The instrument branch of playNote: the oscillators it creates, numbered from `firstId`,
     * and the envelope it schedules on the voice's gain. The organ's are pushed one harmonic
     * at a time.
     */
    static method BuildVoice(instrument: InstrumentType, semitones: int, firstId: nat)
      returns (oscs: seq<Oscillator>, envelope: seq<GainEvent>)
      ensures oscs == Recipe(instrument, semitones, firstId)
      ensures envelope == Envelope(instrument)
    {
      if instrument == Piano {
        var main := Oscillator(firstId, Sine, semitones, 1, 0, None);
        var sub := Oscillator(firstId + 1, Triangle, semitones, 1, 4, None);
        oscs := [main, sub];
        envelope := PianoEnvelope;
      } else {
        oscs := [];
        var i := 0;
        while i < |Harmonics|
          invariant 0 <= i <= |Harmonics|
          invariant |oscs| == i
          invariant forall j | 0 <= j < i :: oscs[j] == OrganOscillator(semitones, firstId, j)
        {
          oscs := oscs + [Oscillator(firstId + i, Sine, semitones, Harmonics[i], 0, Some(OrganLevel(i)))];
          i := i + 1;
        }
        envelope := OrganEnvelope;
      }
    }

    /** Returns false where initContext throws (no context can be made). */
    method PlayNote(note: string, octave: int, instrument: InstrumentType) returns (ok: bool)
      requires Valid()
      modifies this
      ensures ok == CanPlay(old(State()))
      ensures Valid() && State() == AfterPlayNote(old(State()), note, octave, instrument)
    {
      ghost var e0 := State();
      PlayNoteKeepsInv(e0, note, octave, instrument);
      InitContext();
      if ctx.None? {
        return false;
      }
      var semitones := SemitoneOffset(note, octave);
      var id := Key(note, octave);
      StopNote(note, octave);
      PlayNoteSteps(e0, note, octave, instrument);
      var gainId := nextId;
      var oscs, envelope := BuildVoice(instrument, semitones, gainId + 1);
      nextId := gainId + 1 + |oscs|;
      sounding := sounding + Ids(oscs);  // every oscillator is started as it is built
      oscillators := oscillators[id := oscs];
      gainNodes := gainNodes[id := GainNode(gainId, envelope)];
      assert State() == AfterPlayNote(e0, note, octave, instrument);
      ok := true;
    }

    method StopNote(note: string, octave: int)
      requires Valid()
      modifies this
      ensures Valid() && State() == AfterStopNote(old(State()), note, octave)
    {
      StopNoteKeepsInv(State(), note, octave);
      var id := Key(note, octave);
      if id in oscillators && id in gainNodes && ctx.Some? {
        var oscs := oscillators[id];
        var gain := gainNodes[id];
        gainNodes := gainNodes[id := gain.(automation := ReleaseEnvelope)];
        pending := pending + [Cleanup(id, oscs)];
      }
    }

    /** The oldest pending 150 ms timeout of stopNote fires. */
    method FireCleanup()
      requires Valid() && pending != []
      modifies this
      ensures Valid() && State() == AfterCleanup(old(State()))
    {
      CleanupKeepsInv(State());
      var job := pending[0];
      var running := sounding;
      var i := 0;
      while i < |job.captured|
        invariant 0 <= i <= |job.captured|
        invariant running == sounding - Ids(job.captured[..i])
      {
        // stopping an oscillator that is already stopped throws; the error is swallowed
        assert job.captured[..i + 1] == job.captured[..i] + [job.captured[i]];
        assert Ids(job.captured[..i + 1]) == Ids(job.captured[..i]) + {job.captured[i].id};
        running := running - {job.captured[i].id};
        i := i + 1;
      }
      assert job.captured[..i] == job.captured;
      sounding := running;
      oscillators := oscillators - {job.key};
      gainNodes := gainNodes - {job.key};
      pending := pending[1..];
    }
  }
}

=== FILE: notes.dfy ===
/**
 * Note names and the string key `note + octave` under which both the synthesizer
 * and the keyboard identify a note ("C#4", "A3", "C-1").
 */
module Notes {
  /** The twelve pitch classes in semitone order, starting from C. */
  const NoteNames: seq<string> := ["C", "C#", "D", "D#", "E", "F", "F#", "G", "G#", "A", "A#", "B"]

  predicate IsDigit(c: char) { '0' <= c <= '9' }

  /** Characters that occur in note names: never a digit and never a minus sign. */
  predicate IsNameChar(c: char) { 'A' <= c <= 'G' || c == '#' }

  lemma NoteNamesAreDistinct()
    ensures forall i, j | 0 <= i < j < |NoteNames| :: NoteNames[i] != NoteNames[j]
  {
  }

  lemma NoteNamesUseNameChars()
    ensures forall n, k | n in NoteNames && 0 <= k < |n| :: IsNameChar(n[k])
  {
  }

  function DigitChar(d: nat): (c: char)
    requires d < 10
    ensures IsDigit(c)
  {
    "0123456789"[d]
  }

  /** Decimal representation of a natural number, most significant digit first. */
  function NatToString(n: nat): string
    decreases n
  {
    if n < 10 then [DigitChar(n)] else NatToString(n / 10) + [DigitChar(n % 10)]
  }

  /**
   * How JavaScript renders an integral number inside a template literal, for magnitudes below
   * 10^21 (larger ones use exponent notation, which is not modelled).
   */
  function IntToString(i: int): string
  {
    if i < 0 then "-" + NatToString(-i) else NatToString(i)
  }

  /** Decimal digits only, and a single one exactly below ten. */
  lemma {:induction false} NatToStringDigits(n: nat)
    ensures var s := NatToString(n);
      && |s| > 0 && (forall k | 0 <= k < |s| :: IsDigit(s[k]))
      && (n < 10 <==> |s| == 1)
    decreases n
  {
    if n >= 10 {
      NatToStringDigits(n / 10);
    }
  }

  /** A rendered integer starts with a minus sign exactly when it is negative, else with a digit. */
  lemma IntToStringShape(i: int)
    ensures var s := IntToString(i);
      && |s| > 0 && (s[0] == '-' || IsDigit(s[0]))
      && (s[0] == '-' <==> i < 0)
  {
    NatToStringDigits(if i < 0 then -i else i);
  }

  lemma {:induction false} NatToStringInjective(a: nat, b: nat)
    requires NatToString(a) == NatToString(b)
    ensures a == b
    decreases a
  {
    var s := NatToString(a);
    NatToStringDigits(a);
    NatToStringDigits(b);
    if a >= 10 && b >= 10 {
      assert NatToString(a / 10) == s[..|s| - 1] == NatToString(b / 10);
      NatToStringInjective(a / 10, b / 10);
      assert DigitChar(a % 10) == s[|s| - 1] == DigitChar(b % 10);
      assert a % 10 == b % 10;
    }
  }

  lemma IntToStringInjective(a: int, b: int)
    requires IntToString(a) == IntToString(b)
    ensures a == b
  {
    var s := IntToString(a);
    IntToStringShape(a);
    IntToStringShape(b);
    if a < 0 {
      assert b < 0;
      assert NatToString(-a) == s[1..] == NatToString(-b);
      NatToStringInjective(-a, -b);
    } else {
      NatToStringInjective(a, b);
    }
  }

  /** The registry / keyboard id of a note: `${note}${octave}`. */
  function Key(note: string, octave: int): string
  {
    note + IntToString(octave)
  }

  /** A key is the note name followed by the octave in decimal, as in "C4", "C#3" or "A-1". */
  lemma KeyText()
    ensures Key("C", 4) == "C4" && Key("E", 4) == "E4" && Key("C#", 3) == "C#3" && Key("A", -1) == "A-1"
  {
  }

  /** Length of the longest prefix of `s` made of name characters. */
  function NamePrefixLength(s: string): (r: nat)
    ensures r <= |s|
  {
    if |s| == 0 || !IsNameChar(s[0]) then 0 else 1 + NamePrefixLength(s[1..])
  }

  lemma {:induction false} NamePrefixOfKey(n: string, s: string)
    requires forall k | 0 <= k < |n| :: IsNameChar(n[k])
    requires |s| > 0 && !IsNameChar(s[0])
    ensures NamePrefixLength(n + s) == |n|
  {
    if |n| > 0 {
      assert (n + s)[1..] == n[1..] + s;
      NamePrefixOfKey(n[1..], s);
    }
  }

  /** A name followed by a suffix that starts with a non-name character splits one way only. */
  lemma SplitAtFirstNonNameChar(n1: string, s1: string, n2: string, s2: string)
    requires forall k | 0 <= k < |n1| :: IsNameChar(n1[k])
    requires forall k | 0 <= k < |n2| :: IsNameChar(n2[k])
    requires |s1| > 0 && !IsNameChar(s1[0]) && |s2| > 0 && !IsNameChar(s2[0])
    requires n1 + s1 == n2 + s2
    ensures n1 == n2 && s1 == s2
  {
    var k := n1 + s1;
    NamePrefixOfKey(n1, s1);
    NamePrefixOfKey(n2, s2);
    assert n1 == k[..|n1|] == n2;
    assert s1 == k[|n1|..] == s2;
  }

  /** For recognised note names the key determines the note and the octave. */
  lemma KeyInjective(n1: string, o1: int, n2: string, o2: int)
    requires n1 in NoteNames && n2 in NoteNames
    requires Key(n1, o1) == Key(n2, o2)
    ensures n1 == n2 && o1 == o2
  {
    NoteNamesUseNameChars();
    IntToStringShape(o1);
    IntToStringShape(o2);
    SplitAtFirstNonNameChar(n1, IntToString(o1), n2, IntToString(o2));
    IntToStringInjective(o1, o2);
  }
}

=== FILE: player.dfy ===
// The step and playback logic of the App component: the guide and its current step, manual
// stepping, the auto-play interval with its closure-local cursor, the keys being held, and
// the 36-key keyboard with its highlight. Timers are explicit queues fired by events; the
// sound engine is the AudioService model.
module PianoApp {
  import opened Wrappers
  import opened Types
  import opened Notes
  import opened Audio

  // ------------------------------------------------------------------------------------------
  // The current step
  // ------------------------------------------------------------------------------------------

  /** `currentStep` is a JavaScript number: an integer, or NaN once `x % 0` has been taken. */
  datatype Step = At(i: int) | NotANumber

  lemma MulAtLeast(d: int, n: int)
    requires d >= 1 && n > 0
    ensures d * n >= n
  {
  }

  /** The remainder is determined by any quotient-remainder split. */
  lemma {:induction false} ModUnique(a: int, n: int, q: int, r: int)
    requires n > 0 && 0 <= r < n && a == q * n + r
    ensures a % n == r
  {
    var q', r' := a / n, a % n;
    assert (q - q') * n == r' - r;
    if q - q' >= 1 {
      MulAtLeast(q - q', n);
    } else if q' - q >= 1 {
      MulAtLeast(q' - q, n);
    }
  }

  lemma ModNext(x: nat, n: nat)
    requires n > 0
    ensures (x % n + 1) % n == (x + 1) % n
  {
    var q, r := x / n, x % n;
    if r + 1 < n {
      ModUnique(r + 1, n, 0, r + 1);
      ModUnique(x + 1, n, q, r + 1);
    } else {
      ModUnique(r + 1, n, 1, 0);
      ModUnique(x + 1, n, q + 1, 0);
    }
  }

  /** Counting on by one wraps to 0 exactly at `n`. */
  lemma ModStep(x: nat, n: nat)
    requires n > 0
    ensures (x + 1) % n == if x % n + 1 == n then 0 else x % n + 1
  {
    ModNext(x, n);
    if x % n + 1 == n {
      ModUnique(n, n, 1, 0);
    } else {
      ModUnique(x % n + 1, n, 0, x % n + 1);
    }
  }

  /** JavaScript's `%` on integers: the remainder takes the sign of the dividend. */
  function JsRem(a: int, n: int): (r: int)
    requires n > 0
    ensures a >= 0 ==> r == a % n
    ensures a < 0 ==> -n < r <= 0
    ensures (r - a) % n == 0
  {
    if a >= 0 then
      RemainderIsMultiple(a, n);
      a % n
    else
      RemainderIsMultiple(-a, n);
      -((-a) % n)
  }

  /** Taking away the remainder leaves a multiple of the divisor. */
  lemma RemainderIsMultiple(b: int, n: int)
    requires n > 0
    ensures (b - b % n) % n == 0 && (b % n - b) % n == 0
  {
    ModUnique(b - b % n, n, b / n, 0);
    ModUnique(b % n - b, n, -(b / n), 0);
  }

  /** nextStep's updater for a guide of `len` notes: `(prev + 1) % len`. */
  function StepAfter(s: Step, len: nat): Step
  {
    match s
    case NotANumber => NotANumber
    case At(i) => if len == 0 then NotANumber else At(JsRem(i + 1, len))
  }

  /** `k` presses of the next-step button. */
  function StepsAfter(s: Step, len: nat, k: nat): Step
  {
    if k == 0 then s else StepAfter(StepsAfter(s, len, k - 1), len)
  }

  /** The step before the first note (−1) and the last note both wrap to the first note. */
  lemma NextStepWraps(len: nat)
    requires len > 0
    ensures StepAfter(At(-1), len) == At(0)
    ensures StepAfter(At(len - 1), len) == At(0)
    ensures forall i | -1 <= i < len - 1 :: StepAfter(At(i), len) == At(i + 1)
  {
    ModUnique(0, len, 0, 0);
    ModUnique(len, len, 1, 0);
    forall i | -1 <= i < len - 1
      ensures StepAfter(At(i), len) == At(i + 1)
    {
      ModUnique(i + 1, len, 0, i + 1);
    }
  }

  /** From −1 or any note of the guide, stepping stays on the notes of the guide. */
  lemma NextStepStaysInGuide(i: int, len: nat)
    requires len > 0 && -1 <= i < len
    ensures StepAfter(At(i), len).At? && 0 <= StepAfter(At(i), len).i < len
  {
    assert StepAfter(At(i), len) == At((i + 1) % len);
  }

  /** With an empty notes list the step becomes NaN, and stays NaN. */
  lemma NextStepOnEmptyGuide(s: Step, k: nat)
    requires k > 0
    ensures StepsAfter(s, 0, k) == NotANumber
  {
    if k > 1 {
      NextStepOnEmptyGuide(s, k - 1);
    }
  }

  /** `k` presses from note `i` land on note `(i + k) mod len`: `len` presses go round once. */
  lemma {:induction false} NextStepCycles(i: int, len: nat, k: nat)
    requires 0 <= i < len
    ensures StepsAfter(At(i), len, k) == At((i + k) % len)
  {
    if k == 0 {
      ModUnique(i, len, 0, i);
    } else {
      NextStepCycles(i, len, k - 1);
      var j := (i + k - 1) % len;
      assert StepsAfter(At(i), len, k) == StepAfter(At(j), len);
      assert StepAfter(At(j), len) == At((j + 1) % len);
      ModNext(i + k - 1, len);
    }
  }

  // ------------------------------------------------------------------------------------------
  // The keyboard
  // ------------------------------------------------------------------------------------------

  /** The properties renderKeys hands to each PianoKey (the handlers are the App's own). */
  datatype PianoKey = PianoKey(
    id: string,
    note: string,
    octave: int,
    isBlack: bool,
    isHighlighted: bool,
    isActive: bool)

  const Octaves: seq<int> := [3, 4, 5]

  /** The highlight test: the guide's note at the current step exists and is this key's. */
  predicate Highlighted(guide: Option<SongAnalysisResponse>, step: Step, note: string, octave: int)
  {
    && guide.Some?
    && step.At?
    && 0 <= step.i < |guide.value.notes|
    && guide.value.notes[step.i].note == note
    && guide.value.notes[step.i].octave == octave
  }

  function KeyFor(guide: Option<SongAnalysisResponse>, step: Step, active: set<string>,
                  note: string, octave: int): PianoKey
  {
    PianoKey(Key(note, octave), note, octave, '#' in note,
             Highlighted(guide, step, note, octave), Key(note, octave) in active)
  }

  /** The twelve keys of one octave, C to B. */
  function Row(guide: Option<SongAnalysisResponse>, step: Step, active: set<string>, octave: int): seq<PianoKey>
  {
    seq(|NoteNames|, m requires 0 <= m < |NoteNames| => KeyFor(guide, step, active, NoteNames[m], octave))
  }

  /** The rows of the given octaves, one after the other. */
  function Rows(guide: Option<SongAnalysisResponse>, step: Step, active: set<string>, octaves: seq<int>): seq<PianoKey>
  {
    if octaves == [] then []
    else Rows(guide, step, active, octaves[..|octaves| - 1]) + Row(guide, step, active, octaves[|octaves| - 1])
  }

  /** The keys renderKeys lays out: for each octave 3, 4, 5, the twelve note names in order. */
  function Keyboard(guide: Option<SongAnalysisResponse>, step: Step, active: set<string>): seq<PianoKey>
  {
    Rows(guide, step, active, Octaves)
  }

  /** The keyboard is the row of octave 3, then 4, then 5. */
  lemma KeyboardRows(guide: Option<SongAnalysisResponse>, step: Step, active: set<string>)
    ensures Keyboard(guide, step, active)
      == Row(guide, step, active, 3) + Row(guide, step, active, 4) + Row(guide, step, active, 5)
    ensures |Keyboard(guide, step, active)| == 36
  {
    assert Octaves[..2] == [3, 4] && [3, 4][..1] == [3] && [3][..0] == [];
    calc {
      Keyboard(guide, step, active);
      Rows(guide, step, active, [3, 4]) + Row(guide, step, active, 5);
      Rows(guide, step, active, [3]) + Row(guide, step, active, 4) + Row(guide, step, active, 5);
      Rows(guide, step, active, []) + Row(guide, step, active, 3) + Row(guide, step, active, 4)
        + Row(guide, step, active, 5);
    }
  }

  /** Key `i` of the keyboard is note `i mod 12` of octave `3 + i div 12`. */
  lemma KeyAt(guide: Option<SongAnalysisResponse>, step: Step, active: set<string>, i: int)
    requires 0 <= i < 36
    ensures var ks := Keyboard(guide, step, active);
      |ks| == 36 && ks[i] == KeyFor(guide, step, active, NoteNames[i % 12], 3 + i / 12)
  {
    var r3, r4, r5 := Row(guide, step, active, 3), Row(guide, step, active, 4), Row(guide, step, active, 5);
    KeyboardRows(guide, step, active);
    var m, o := i % 12, 3 + i / 12;
    if i < 12 {
      assert m == i && o == 3;
      assert (r3 + r4 + r5)[i] == r3[m];
    } else if i < 24 {
      assert m == i - 12 && o == 4;
      assert (r3 + r4 + r5)[i] == r4[m];
    } else {
      assert m == i - 24 && o == 5;
      assert (r3 + r4 + r5)[i] == r5[m];
    }
  }

  /**
   * 36 keys, octave by octave, C to B in each; a key is black exactly at C#, D#, F#, G#, A#,
   * and shows as held exactly when its id is among the active notes.
   */
  lemma KeyboardLayout(guide: Option<SongAnalysisResponse>, step: Step, active: set<string>)
    ensures var ks := Keyboard(guide, step, active);
      && |ks| == 36
      && (forall i | 0 <= i < |ks| ::
            && ks[i].note == NoteNames[i % 12]
            && ks[i].octave == 3 + i / 12
            && ks[i].id == Key(ks[i].note, ks[i].octave)
            && (ks[i].isBlack <==> i % 12 in {1, 3, 6, 8, 10})
            && (ks[i].isActive <==> ks[i].id in active))
  {
    var ks := Keyboard(guide, step, active);
    KeyboardRows(guide, step, active);
    forall i | 0 <= i < 36
      ensures ks[i].note == NoteNames[i % 12] && ks[i].octave == 3 + i / 12
      ensures ks[i].isBlack <==> i % 12 in {1, 3, 6, 8, 10}
    {
      KeyAt(guide, step, active, i);
      BlackNames(i % 12);
    }
  }

  /** The names with a sharp sit at positions 1, 3, 6, 8 and 10. */
  lemma BlackNames(n: int)
    requires 0 <= n < 12
    ensures '#' in NoteNames[n] <==> n in {1, 3, 6, 8, 10}
  {
    if n in {1, 3, 6, 8, 10} {
      assert NoteNames[n][1] == '#';
    }
  }

  /** No two keys share an id. */
  lemma KeyIdsDistinct(guide: Option<SongAnalysisResponse>, step: Step, active: set<string>)
    ensures var ks := Keyboard(guide, step, active);
      forall i, j | 0 <= i < j < |ks| :: ks[i].id != ks[j].id
  {
    var ks := Keyboard(guide, step, active);
    KeyboardRows(guide, step, active);
    forall i, j | 0 <= i < j < |ks|
      ensures ks[i].id != ks[j].id
    {
      KeyAt(guide, step, active, i);
      KeyAt(guide, step, active, j);
      PositionsHaveDistinctKeys(i, j);
    }
  }

  lemma PositionsHaveDistinctKeys(i: int, j: int)
    requires 0 <= i < j < 36
    ensures Key(NoteNames[i % 12], 3 + i / 12) != Key(NoteNames[j % 12], 3 + j / 12)
  {
    NoteNamesAreDistinct();
    if Key(NoteNames[i % 12], 3 + i / 12) == Key(NoteNames[j % 12], 3 + j / 12) {
      KeyInjective(NoteNames[i % 12], 3 + i / 12, NoteNames[j % 12], 3 + j / 12);
      assert false;
    }
  }

  /** At most one key is highlighted at a time. */
  lemma AtMostOneHighlighted(guide: Option<SongAnalysisResponse>, step: Step, active: set<string>)
    ensures var ks := Keyboard(guide, step, active);
      forall i, j | 0 <= i < |ks| && 0 <= j < |ks| && ks[i].isHighlighted && ks[j].isHighlighted ::
        i == j
  {
    var ks := Keyboard(guide, step, active);
    KeyboardRows(guide, step, active);
    NoteNamesAreDistinct();
    forall i, j | 0 <= i < |ks| && 0 <= j < |ks| && ks[i].isHighlighted && ks[j].isHighlighted
      ensures i == j
    {
      KeyAt(guide, step, active, i);
      KeyAt(guide, step, active, j);
    }
  }

  /** Without a guide, or with the step off the notes (−1, past the end, NaN), nothing is lit. */
  lemma NothingHighlightedOffTheGuide(guide: Option<SongAnalysisResponse>, step: Step, active: set<string>)
    requires guide.None? || step.NotANumber? || !(0 <= step.i < |guide.value.notes|)
    ensures var ks := Keyboard(guide, step, active);
      forall i | 0 <= i < |ks| :: !ks[i].isHighlighted
  {
    var ks := Keyboard(guide, step, active);
    KeyboardRows(guide, step, active);
    forall i | 0 <= i < |ks|
      ensures !ks[i].isHighlighted
    {
      KeyAt(guide, step, active, i);
    }
  }

  /** A key is lit only for a current note that is on the keyboard: a known name, octave 3 to 5. */
  lemma HighlightOnlyOnKeyboard(guide: Option<SongAnalysisResponse>, step: Step, active: set<string>)
    ensures var ks := Keyboard(guide, step, active);
      forall i | 0 <= i < |ks| && ks[i].isHighlighted ::
        && guide.Some? && step.At? && 0 <= step.i < |guide.value.notes|
        && guide.value.notes[step.i].note in NoteNames
        && 3 <= guide.value.notes[step.i].octave <= 5
  {
    var ks := Keyboard(guide, step, active);
    KeyboardRows(guide, step, active);
    forall i | 0 <= i < |ks| && ks[i].isHighlighted
      ensures guide.value.notes[step.i].note in NoteNames
      ensures 3 <= guide.value.notes[step.i].octave <= 5
    {
      KeyAt(guide, step, active, i);
    }
  }

  /**
   * A current note with name `NoteNames[m]` in octave 3, 4 or 5 lights the key at position
   * `(octave - 3) * 12 + m`.
   */
  lemma CurrentNoteHighlighted(guide: Option<SongAnalysisResponse>, step: Step, active: set<string>, m: int)
    requires guide.Some? && step.At? && 0 <= step.i < |guide.value.notes|
    requires 0 <= m < 12 && guide.value.notes[step.i].note == NoteNames[m]
    requires 3 <= guide.value.notes[step.i].octave <= 5
    ensures var ks := Keyboard(guide, step, active);
      var k := (guide.value.notes[step.i].octave - 3) * 12 + m;
      0 <= k < |ks| && ks[k].isHighlighted
  {
    var k := (guide.value.notes[step.i].octave - 3) * 12 + m;
    KeyAt(guide, step, active, k);
  }

  // ------------------------------------------------------------------------------------------
  // The App's state
  // ------------------------------------------------------------------------------------------

  /** A note whose release is pending: the 400 ms timeout an auto-play tick sets. */
  datatype Pitch = Pitch(note: string, octave: int)

  /**
   * A live auto-play interval: its closure-local cursor, and the notes and instrument it
   * captured when it was started.
   */
  datatype Interval = Interval(cursor: nat, notes: seq<NoteGuide>, instrument: InstrumentType)

  datatype AppState = AppState(
    instrument: InstrumentType,
    guide: Option<SongAnalysisResponse>,
    currentStep: Step,
    activeNotes: set<string>,
    timerRef: Option<nat>,            // the handle in timerRef.current, None for null
    intervals: map<nat, Interval>,    // every interval not yet cleared, by handle
    nextHandle: nat,                  // handles are positive and never reused
    pendingStops: seq<Pitch>,         // the 400 ms stop timeouts, in firing order
    engine: Engine)

  /** The App's first render: piano, no guide, step −1, nothing held, no timers. */
  function Initial(engine: Engine): AppState
  {
    AppState(Piano, None, At(-1), {}, None, map[], 1, [], engine)
  }

  /** The cursor points at a note of the captured guide, or is 0 on an empty one. */
  predicate IntervalOk(iv: Interval)
  {
    iv.cursor == 0 || iv.cursor < |iv.notes|
  }

  ghost predicate AppInv(p: AppState)
  {
    && Inv(p.engine)
    && p.nextHandle >= 1
    && (forall h | h in p.intervals :: 1 <= h < p.nextHandle && IntervalOk(p.intervals[h]))
    && (p.timerRef.Some? ==> p.timerRef.value in p.intervals)
  }

  lemma InitialKeepsInv(engine: Engine)
    requires Inv(engine)
    ensures AppInv(Initial(engine))
  {
  }

  // ------------------------------------------------------------------------------------------
  // The handlers
  // ------------------------------------------------------------------------------------------

  /**
   * handlePlayNote with the given instrument: the engine plays the note; the key joins the
   * active notes unless playNote threw (no audio context could be made).
   */
  function AfterPlayWith(p: AppState, note: string, octave: int, instrument: InstrumentType): AppState
  {
    p.(engine := AfterPlayNote(p.engine, note, octave, instrument),
       activeNotes := if CanPlay(p.engine) then p.activeNotes + {Key(note, octave)} else p.activeNotes)
  }

  function AfterHandlePlayNote(p: AppState, note: string, octave: int): AppState
  {
    AfterPlayWith(p, note, octave, p.instrument)
  }

  function AfterHandleStopNote(p: AppState, note: string, octave: int): AppState
  {
    p.(engine := AfterStopNote(p.engine, note, octave),
       activeNotes := p.activeNotes - {Key(note, octave)})
  }

  /**
   * handleProcessUrl once the analysis has settled: `analysis` is what the analysis service
   * returned, None when it failed.
   */
  function AfterProcessUrl(p: AppState, url: string, analysis: Option<SongAnalysisResponse>): AppState
  {
    if url == "" then p
    else match analysis
      case None => p
      case Some(g) => p.(guide := Some(g), currentStep := At(0))
  }

  function AfterNextStep(p: AppState): AppState
  {
    match p.guide
    case None => p
    case Some(g) => p.(currentStep := StepAfter(p.currentStep, |g.notes|))
  }

  function AfterStartAutoPlay(p: AppState): AppState
  {
    match p.guide
    case None => p
    case Some(g) =>
      p.(intervals := p.intervals[p.nextHandle := Interval(0, g.notes, p.instrument)],
         timerRef := Some(p.nextHandle),
         nextHandle := p.nextHandle + 1)
  }

  function AfterStopAutoPlay(p: AppState): AppState
  {
    match p.timerRef
    case None => p
    case Some(h) => p.(intervals := p.intervals - {h}, timerRef := None)
  }

  /**
   * Interval `h` fires. Reading a note past the end of the captured notes throws, and so does
   * playNote without a context: then the tick changes nothing.
   */
  function AfterTick(p: AppState, h: nat): AppState
    requires h in p.intervals
  {
    var iv := p.intervals[h];
    if iv.cursor >= |iv.notes| || !CanPlay(p.engine) then p
    else
      var n := iv.notes[iv.cursor];
      var q := AfterPlayWith(p, n.note, n.octave, iv.instrument);
      q.(pendingStops := q.pendingStops + [Pitch(n.note, n.octave)],
         currentStep := At(iv.cursor),
         intervals := q.intervals[h := iv.(cursor := (iv.cursor + 1) % |iv.notes|)])
  }

  /** The oldest 400 ms stop timeout fires and calls handleStopNote. */
  function AfterStopTimer(p: AppState): AppState
    requires p.pendingStops != []
  {
    var s := p.pendingStops[0];
    AfterHandleStopNote(p.(pendingStops := p.pendingStops[1..]), s.note, s.octave)
  }

  // ------------------------------------------------------------------------------------------
  // Runs of events
  // ------------------------------------------------------------------------------------------

  /** Everything that can happen to the App: user actions and timers firing. */
  datatype Event =
    | PlayKey(note: string, octave: int)
    | StopKey(note: string, octave: int)
    | SubmitUrl(url: string, analysis: Option<SongAnalysisResponse>)
    | Next
    | Start
    | Stop
    | ChooseInstrument(choice: InstrumentType)
    | IntervalFires(handle: nat)
    | StopTimerFires
    | CleanupTimerFires
    | ResumeSettles

  /** A timer can fire only while it is live. */
  predicate Enabled(p: AppState, ev: Event)
  {
    match ev
    case IntervalFires(h) => h in p.intervals
    case StopTimerFires => p.pendingStops != []
    case CleanupTimerFires => p.engine.pending != []
    case _ => true
  }

  function Apply(p: AppState, ev: Event): AppState
  {
    if !Enabled(p, ev) then p
    else match ev
      case PlayKey(note, octave) => AfterHandlePlayNote(p, note, octave)
      case StopKey(note, octave) => AfterHandleStopNote(p, note, octave)
      case SubmitUrl(url, analysis) => AfterProcessUrl(p, url, analysis)
      case Next => AfterNextStep(p)
      case Start => AfterStartAutoPlay(p)
      case Stop => AfterStopAutoPlay(p)
      case ChooseInstrument(choice) => p.(instrument := choice)
      case IntervalFires(h) => AfterTick(p, h)
      case StopTimerFires => AfterStopTimer(p)
      case CleanupTimerFires => p.(engine := AfterCleanup(p.engine))
      case ResumeSettles => p.(engine := AfterResume(p.engine))
  }

  function Run(p: AppState, evs: seq<Event>): AppState
    decreases |evs|
  {
    if evs == [] then p else Run(Apply(p, evs[0]), evs[1..])
  }

  // ------------------------------------------------------------------------------------------
  // The invariant
  // ------------------------------------------------------------------------------------------

  lemma PlayWithKeepsInv(p: AppState, note: string, octave: int, instrument: InstrumentType)
    requires AppInv(p)
    ensures AppInv(AfterPlayWith(p, note, octave, instrument))
  {
    PlayNoteKeepsInv(p.engine, note, octave, instrument);
  }

  lemma TickKeepsInv(p: AppState, h: nat)
    requires AppInv(p) && h in p.intervals
    ensures AppInv(AfterTick(p, h))
  {
    var iv := p.intervals[h];
    if iv.cursor < |iv.notes| && CanPlay(p.engine) {
      var n := iv.notes[iv.cursor];
      PlayWithKeepsInv(p, n.note, n.octave, iv.instrument);
    }
  }

  lemma ApplyKeepsInv(p: AppState, ev: Event)
    requires AppInv(p)
    ensures AppInv(Apply(p, ev))
  {
    if Enabled(p, ev) {
      match ev
      case PlayKey(note, octave) => PlayWithKeepsInv(p, note, octave, p.instrument);
      case StopKey(note, octave) => StopNoteKeepsInv(p.engine, note, octave);
      case IntervalFires(h) => TickKeepsInv(p, h);
      case StopTimerFires =>
        StopNoteKeepsInv(p.engine, p.pendingStops[0].note, p.pendingStops[0].octave);
      case CleanupTimerFires => CleanupKeepsInv(p.engine);
      case ResumeSettles => InitContextKeepsInv(p.engine);
      case _ =>
    }
  }

  lemma {:induction false} RunKeepsInv(p: AppState, evs: seq<Event>)
    requires AppInv(p)
    ensures AppInv(Run(p, evs))
    decreases |evs|
  {
    if evs != [] {
      ApplyKeepsInv(p, evs[0]);
      RunKeepsInv(Apply(p, evs[0]), evs[1..]);
    }
  }

  // ------------------------------------------------------------------------------------------
  // What the handlers mean
  // ------------------------------------------------------------------------------------------

  /** handlePlayNote adds exactly its key to the held notes (when a context exists). */
  lemma PlayNoteMarksKey(p: AppState, note: string, octave: int)
    requires CanPlay(p.engine)
    ensures var r := AfterHandlePlayNote(p, note, octave);
      && Key(note, octave) in r.activeNotes
      && (forall k | k != Key(note, octave) :: k in r.activeNotes <==> k in p.activeNotes)
  {
  }

  /** Without a context handlePlayNote throws inside playNote: nothing changes at all. */
  lemma PlayNoteWithoutContextChangesNothing(p: AppState, note: string, octave: int)
    requires Inv(p.engine) && !CanPlay(p.engine)
    ensures AfterHandlePlayNote(p, note, octave) == p
  {
    PlayNoteWithoutContext(p.engine, note, octave, p.instrument);
  }

  /** handleStopNote removes exactly its key from the held notes. */
  lemma StopNoteUnmarksKey(p: AppState, note: string, octave: int)
    ensures var r := AfterHandleStopNote(p, note, octave);
      && Key(note, octave) !in r.activeNotes
      && (forall k | k != Key(note, octave) :: k in r.activeNotes <==> k in p.activeNotes)
  {
  }

  /** Pressing and releasing a key leaves the other held keys as they were. */
  lemma PressAndReleaseRestoresOthers(p: AppState, note: string, octave: int)
    ensures var r := AfterHandleStopNote(AfterHandlePlayNote(p, note, octave), note, octave);
      r.activeNotes == p.activeNotes - {Key(note, octave)}
  {
  }

  /**
   * An empty URL is ignored and a failed analysis changes nothing; a successful one shows its
   * guide from step 0 and changes nothing else: timers, sound and held keys stay as they were.
   */
  lemma ProcessUrlOutcomes(p: AppState, url: string, analysis: Option<SongAnalysisResponse>)
    ensures url == "" || analysis.None? ==> AfterProcessUrl(p, url, analysis) == p
    ensures url != "" && analysis.Some? ==>
      AfterProcessUrl(p, url, analysis) == p.(guide := analysis, currentStep := At(0))
  {
  }

  /** After a successful analysis the key of the first note is lit, when it is on the keyboard. */
  lemma ProcessedGuideLightsFirstNote(p: AppState, url: string, g: SongAnalysisResponse, m: int)
    requires url != "" && g.notes != []
    requires 0 <= m < 12 && g.notes[0].note == NoteNames[m] && 3 <= g.notes[0].octave <= 5
    ensures var r := AfterProcessUrl(p, url, Some(g));
      var ks := Keyboard(r.guide, r.currentStep, r.activeNotes);
      var k := (g.notes[0].octave - 3) * 12 + m;
      0 <= k < |ks| && ks[k].isHighlighted
  {
    var r := AfterProcessUrl(p, url, Some(g));
    CurrentNoteHighlighted(r.guide, r.currentStep, r.activeNotes, m);
  }

  /** `k` presses of the next-step button and nothing else. */
  function Presses(k: nat): seq<Event>
  {
    seq(k, _ => Next)
  }

  /**
   * `k` presses of nextStep change nothing without a guide; with one they change only the
   * current step, and from note `i` they land on note `(i + k) mod len`.
   */
  lemma {:induction false} NextStepPresses(p: AppState, k: nat)
    ensures p.guide.None? ==> Run(p, Presses(k)) == p
    ensures p.guide.Some? ==>
      Run(p, Presses(k)) == p.(currentStep := StepsAfter(p.currentStep, |p.guide.value.notes|, k))
    ensures p.guide.Some? && p.currentStep.At? && 0 <= p.currentStep.i < |p.guide.value.notes| ==>
      Run(p, Presses(k)).currentStep == At((p.currentStep.i + k) % |p.guide.value.notes|)
  {
    if k > 0 {
      NextStepPresses(p, k - 1);
      assert Presses(k)[..k - 1] == Presses(k - 1);
      RunLast(p, Presses(k));
    }
    if p.guide.Some? && p.currentStep.At? && 0 <= p.currentStep.i < |p.guide.value.notes| {
      NextStepCycles(p.currentStep.i, |p.guide.value.notes|, k);
    }
  }

  /**
   * stopAutoPlay clears only the interval in timerRef and nulls it: sounding voices, queued
   * stops and the step are untouched, and a second call does nothing.
   */
  lemma StopAutoPlayIdempotent(p: AppState)
    ensures var r := AfterStopAutoPlay(p);
      && r.timerRef.None?
      && (p.timerRef.Some? ==> r == p.(intervals := p.intervals - {p.timerRef.value}, timerRef := None))
      && (p.timerRef.None? ==> r == p)
      && AfterStopAutoPlay(r) == r
  {
  }

  /**
   * startAutoPlay without a guide does nothing; with one it starts a new interval at cursor 0,
   * whatever the current step, over the guide's notes and the instrument of the moment.
   */
  lemma StartAutoPlayFromZero(p: AppState)
    requires AppInv(p)
    ensures p.guide.None? ==> AfterStartAutoPlay(p) == p
    ensures p.guide.Some? ==>
      var r := AfterStartAutoPlay(p);
      && r.timerRef.Some? && r.timerRef.value !in p.intervals
      && r.intervals[r.timerRef.value] == Interval(0, p.guide.value.notes, p.instrument)
      && r.currentStep == p.currentStep
      && (forall h | h in p.intervals :: h in r.intervals && r.intervals[h] == p.intervals[h])
  {
  }

  /** A tick over an empty notes list throws: nothing changes, on every tick. */
  lemma TickOnEmptyNotes(p: AppState, h: nat)
    requires h in p.intervals && p.intervals[h].notes == []
    ensures AfterTick(p, h) == p
  {
  }

  // ------------------------------------------------------------------------------------------
  // Auto-play
  // ------------------------------------------------------------------------------------------

  /**
   * A tick at a cursor inside the captured notes, with a context available, plays that note,
   * queues its stop, publishes the cursor as the current step and advances the cursor,
   * wrapping to 0 after the last note.
   */
  lemma TickPlaysCursorNote(p: AppState, h: nat)
    requires h in p.intervals && p.intervals[h].cursor < |p.intervals[h].notes|
    requires CanPlay(p.engine)
    ensures var r := AfterTick(p, h);
      var iv := p.intervals[h];
      var n := iv.notes[iv.cursor];
      && h in r.intervals
      && r.intervals[h] == iv.(cursor := if iv.cursor + 1 == |iv.notes| then 0 else iv.cursor + 1)
      && r.pendingStops == p.pendingStops + [Pitch(n.note, n.octave)]
      && r.currentStep == At(iv.cursor)
      && Key(n.note, n.octave) in r.activeNotes
      && r.engine == AfterPlayNote(p.engine, n.note, n.octave, iv.instrument)
      && CanPlay(r.engine)
  {
    var iv := p.intervals[h];
    if iv.cursor + 1 == |iv.notes| {
      ModUnique(iv.cursor + 1, |iv.notes|, 1, 0);
    } else {
      ModUnique(iv.cursor + 1, |iv.notes|, 0, iv.cursor + 1);
    }
  }

  lemma TickKeepsContext(p: AppState, h: nat)
    requires h in p.intervals && CanPlay(p.engine)
    ensures CanPlay(AfterTick(p, h).engine)
  {
    var iv := p.intervals[h];
    if iv.cursor < |iv.notes| {
      var n := iv.notes[iv.cursor];
      PlayNoteKeepsContext(p.engine, n.note, n.octave, iv.instrument);
    }
  }

  /**
   * Any event other than interval `h` firing, and other than a stopAutoPlay that clears `h`,
   * leaves interval `h` exactly as it is and never takes the audio context away.
   */
  lemma OtherEventsLeaveInterval(p: AppState, ev: Event, h: nat)
    requires AppInv(p) && h in p.intervals && ev != IntervalFires(h)
    requires ev == Stop ==> p.timerRef != Some(h)
    ensures var r := Apply(p, ev);
      && h in r.intervals && r.intervals[h] == p.intervals[h]
      && (CanPlay(p.engine) ==> CanPlay(r.engine))
  {
    if Enabled(p, ev) {
      match ev
      case PlayKey(note, octave) =>
        if CanPlay(p.engine) {
          PlayNoteKeepsContext(p.engine, note, octave, p.instrument);
        }
      case IntervalFires(g) =>
        if CanPlay(p.engine) {
          TickKeepsContext(p, g);
        }
      case _ =>
    }
  }

  /** A live interval firing is one tick. */
  lemma FiringIsTick(p: AppState, h: nat)
    requires h in p.intervals
    ensures Apply(p, IntervalFires(h)) == AfterTick(p, h)
  {
  }

  /** A run that ends with a live interval firing ends with one tick. */
  lemma RunThenFire(p: AppState, evs: seq<Event>, h: nat)
    requires h in Run(p, evs).intervals
    ensures Run(p, evs + [IntervalFires(h)]) == AfterTick(Run(p, evs), h)
  {
    var evs' := evs + [IntervalFires(h)];
    assert evs'[..|evs'| - 1] == evs;
    RunLast(p, evs');
    FiringIsTick(Run(p, evs), h);
  }

  /** How many times interval `h` fires in `evs`. */
  function Firings(evs: seq<Event>, h: nat): nat
  {
    if evs == [] then 0
    else Firings(evs[..|evs| - 1], h) + (if evs[|evs| - 1] == IntervalFires(h) then 1 else 0)
  }

  /** A run is its prefix followed by its last event. */
  lemma {:induction false} RunLast(p: AppState, evs: seq<Event>)
    requires evs != []
    ensures Run(p, evs) == Apply(Run(p, evs[..|evs| - 1]), evs[|evs| - 1])
    decreases |evs|
  {
    if |evs| > 1 {
      RunLast(Apply(p, evs[0]), evs[1..]);
      assert evs[1..][..|evs| - 2] == evs[..|evs| - 1][1..];
    }
  }

  /**
   * Whatever happens in between (stops and cleanups firing, keys played, other intervals, new
   * guides, restarts) as long as auto-play is not stopped, interval `h` keeps its captured
   * notes and instrument, its cursor has moved on once per firing of `h`, modulo the number of
   * notes, and a context is still there to play the next note.
   */
  lemma {:induction false} RunAdvancesCursor(p: AppState, h: nat, evs: seq<Event>)
    requires AppInv(p) && h in p.intervals && p.intervals[h].notes != [] && CanPlay(p.engine)
    requires Stop !in evs
    ensures var r := Run(p, evs);
      var iv := p.intervals[h];
      && AppInv(r) && CanPlay(r.engine) && h in r.intervals
      && r.intervals[h].notes == iv.notes && r.intervals[h].instrument == iv.instrument
      && r.intervals[h].cursor == (iv.cursor + Firings(evs, h)) % |iv.notes|
    decreases |evs|
  {
    var iv := p.intervals[h];
    if evs == [] {
      ModUnique(iv.cursor, |iv.notes|, 0, iv.cursor);
    } else {
      var pre, e := evs[..|evs| - 1], evs[|evs| - 1];
      assert evs == pre + [e];
      RunAdvancesCursor(p, h, pre);
      RunLast(p, evs);
      EventAdvancesCursor(Run(p, pre), e, h, iv.cursor + Firings(pre, h));
    }
  }

  /** One event of such a run: the cursor moves on exactly when `h` fires. */
  lemma EventAdvancesCursor(q: AppState, e: Event, h: nat, x: nat)
    requires AppInv(q) && h in q.intervals && q.intervals[h].notes != [] && CanPlay(q.engine)
    requires e != Stop && q.intervals[h].cursor == x % |q.intervals[h].notes|
    ensures var r := Apply(q, e);
      var iv := q.intervals[h];
      && AppInv(r) && CanPlay(r.engine) && h in r.intervals
      && r.intervals[h].notes == iv.notes && r.intervals[h].instrument == iv.instrument
      && r.intervals[h].cursor == (x + if e == IntervalFires(h) then 1 else 0) % |iv.notes|
  {
    ApplyKeepsInv(q, e);
    if e == IntervalFires(h) {
      FiringIsTick(q, h);
      TickPlaysCursorNote(q, h);
      ModStep(x, |q.intervals[h].notes|);
    } else {
      OtherEventsLeaveInterval(q, e, h);
    }
  }

  /**
   * The firing of `h` that follows any such run plays note `k mod len`, where `k` counts the
   * earlier firings of `h`: it lights that step, holds that note's key, plays it with the
   * captured instrument, queues its 400 ms stop last and moves the cursor on.
   */
  lemma AutoPlayRunTick(p: AppState, h: nat, evs: seq<Event>)
    requires AppInv(p) && h in p.intervals && p.intervals[h].cursor == 0 && p.intervals[h].notes != []
    requires CanPlay(p.engine) && Stop !in evs
    ensures var iv := p.intervals[h];
      var c := Firings(evs, h) % |iv.notes|;
      var n := iv.notes[c];
      var q := Run(p, evs);
      var r := Run(p, evs + [IntervalFires(h)]);
      && r.currentStep == At(c)
      && Key(n.note, n.octave) in r.activeNotes
      && r.engine == AfterPlayNote(q.engine, n.note, n.octave, iv.instrument)
      && r.pendingStops == q.pendingStops + [Pitch(n.note, n.octave)]
      && h in r.intervals && r.intervals[h].cursor == (Firings(evs, h) + 1) % |iv.notes|
  {
    var iv, q := p.intervals[h], Run(p, evs);
    var c := Firings(evs, h) % |iv.notes|;
    RunAdvancesCursor(p, h, evs);
    assert q.intervals[h] == iv.(cursor := c);
    RunThenFire(p, evs, h);
    TickPlaysCursorNote(q, h);
    ModStep(Firings(evs, h), |iv.notes|);
  }

  /**
   * When the stop a tick queued fires, the note's key is no longer held and its voice is
   * released: one cleanup for it is queued in the engine.
   */
  lemma TickThenStopReleases(p: AppState, h: nat)
    requires AppInv(p) && h in p.intervals && p.intervals[h].cursor < |p.intervals[h].notes|
    requires CanPlay(p.engine) && p.pendingStops == []
    ensures var iv := p.intervals[h];
      var n := iv.notes[iv.cursor];
      var id := Key(n.note, n.octave);
      var t := AfterTick(p, h);
      var r := AfterStopTimer(t);
      && id in t.engine.oscillators
      && id !in r.activeNotes
      && r.pendingStops == []
      && r.engine.pending == t.engine.pending + [Cleanup(id, t.engine.oscillators[id])]
      && r.engine.gainNodes[id].automation == ReleaseEnvelope
  {
    var iv := p.intervals[h];
    var n := iv.notes[iv.cursor];
    TickPlaysCursorNote(p, h);
    PlayNoteRegistersVoice(p.engine, n.note, n.octave, iv.instrument);
    PlayNoteKeepsInv(p.engine, n.note, n.octave, iv.instrument);
    var t := AfterTick(p, h);
    StopNoteReleases(t.engine, n.note, n.octave);
  }

  /**
   * The organ walk-through: a guide C4, E4, G4 with the organ selected and nothing sounding.
   * Starting auto-play and letting the interval fire lights step 0 and sounds a five-oscillator
   * C4; its 400 ms stop releases it and the 150 ms cleanup silences and unregisters it, all
   * before the second firing, which lights step 1 and sounds a five-oscillator E4.
   */
  lemma OrganWalkThrough(p: AppState, notes: seq<NoteGuide>)
    requires AppInv(p) && CanPlay(p.engine)
    requires p.guide.Some? && p.guide.value.notes == notes && p.instrument == Organ
    requires |notes| == 3 && notes[0].note == "C" && notes[0].octave == 4
    requires notes[1].note == "E" && notes[1].octave == 4
    requires p.pendingStops == [] && p.engine.pending == [] && p.engine.oscillators == map[]
    ensures var h := p.nextHandle;
      var s1 := AfterStartAutoPlay(p);
      var s2 := AfterTick(s1, h);
      var s3 := AfterStopTimer(s2);
      var s4 := s3.(engine := AfterCleanup(s3.engine));
      var s5 := AfterTick(s4, h);
      && s2.currentStep == At(0) && "C4" in s2.activeNotes
      && "C4" in s2.engine.oscillators && |s2.engine.oscillators["C4"]| == 5
      && "C4" !in s3.activeNotes && "C4" in s3.engine.gainNodes
      && s3.engine.gainNodes["C4"].automation == ReleaseEnvelope
      && "C4" !in s4.engine.oscillators && Ids(s2.engine.oscillators["C4"]) !! s4.engine.sounding
      && s5.currentStep == At(1) && "E4" in s5.activeNotes
      && "E4" in s5.engine.oscillators && |s5.engine.oscillators["E4"]| == 5
      && "C4" !in s5.engine.oscillators
  {
    KeyText();
    var h := p.nextHandle;
    var s1 := AfterStartAutoPlay(p);
    assert s1.intervals[h] == Interval(0, notes, Organ);
    TickPlaysCursorNote(s1, h);
    PlayNoteRegistersVoice(p.engine, "C", 4, Organ);
    PlayNoteLeavesOtherKeys(p.engine, "C", 4, Organ);
    PlayNoteKeepsInv(p.engine, "C", 4, Organ);
    var s2 := AfterTick(s1, h);
    assert s2.pendingStops == [Pitch("C", 4)];
    assert s2.engine.pending == [];
    StopNoteReleases(s2.engine, "C", 4);
    StopNoteKeepsInv(s2.engine, "C", 4);
    var s3 := AfterStopTimer(s2);
    assert s3.engine.pending == [Cleanup("C4", s2.engine.oscillators["C4"])];
    CleanupDeletesByKey(s3.engine);
    CleanupKeepsInv(s3.engine);
    var s4 := s3.(engine := AfterCleanup(s3.engine));
    assert s4.intervals[h] == Interval(1, notes, Organ);
    TickPlaysCursorNote(s4, h);
    PlayNoteRegistersVoice(s4.engine, "E", 4, Organ);
    PlayNoteLeavesOtherKeys(s4.engine, "E", 4, Organ);
  }

  /**
   * A second startAutoPlay overwrites timerRef without clearing the first interval, which
   * keeps firing and can no longer be reached through timerRef.
   */
  lemma SecondStartOrphansFirst(p: AppState)
    requires AppInv(p) && p.guide.Some?
    ensures var r := AfterStartAutoPlay(AfterStartAutoPlay(p));
      && p.nextHandle in r.intervals
      && r.timerRef == Some(p.nextHandle + 1)
      && AfterStopAutoPlay(r).timerRef.None?
      && p.nextHandle in AfterStopAutoPlay(r).intervals
  {
  }

  /** An interval not held by timerRef, under one event: it stays live and stays unheld. */
  lemma OrphanStaysOrphan(p: AppState, ev: Event, h: nat)
    requires AppInv(p) && h in p.intervals && p.timerRef != Some(h)
    ensures var r := Apply(p, ev);
      h in r.intervals && r.timerRef != Some(h)
  {
    if Enabled(p, ev) {
      match ev
      case IntervalFires(g) =>
      case _ =>
    }
  }

  /** Whatever happens afterwards, an orphaned interval is never cleared. */
  lemma {:induction false} OrphanRunsForever(p: AppState, evs: seq<Event>, h: nat)
    requires AppInv(p) && h in p.intervals && p.timerRef != Some(h)
    ensures var r := Run(p, evs);
      h in r.intervals && r.timerRef != Some(h)
    decreases |evs|
  {
    if evs != [] {
      OrphanStaysOrphan(p, evs[0], h);
      ApplyKeepsInv(p, evs[0]);
      OrphanRunsForever(Apply(p, evs[0]), evs[1..], h);
    }
  }

  // ------------------------------------------------------------------------------------------
  // The component, updated in place
  // ------------------------------------------------------------------------------------------

  class App {
    const audio: AudioService
    var instrument: InstrumentType
    var guide: Option<SongAnalysisResponse>
    var currentStep: Step
    var activeNotes: set<string>
    var timerRef: Option<nat>
    var intervals: map<nat, Interval>
    var nextHandle: nat
    var pendingStops: seq<Pitch>

    ghost function State(): AppState
      reads this, audio
    {
      AppState(instrument, guide, currentStep, activeNotes, timerRef, intervals, nextHandle,
               pendingStops, audio.State())
    }

    ghost predicate Valid()
      reads this, audio
    {
      AppInv(State())
    }

    constructor (audio: AudioService)
      requires audio.Valid()
      ensures this.audio == audio
      ensures Valid() && State() == Initial(audio.State())
    {
      this.audio := audio;
      instrument := Piano;
      guide := None;
      currentStep := At(-1);
      activeNotes := {};
      timerRef := None;
      intervals := map[];
      nextHandle := 1;
      pendingStops := [];
    }

    /** handlePlayNote with an explicit instrument; false where playNote threw. */
    method PlayWith(note: string, octave: int, with: InstrumentType) returns (ok: bool)
      requires Valid()
      modifies this, audio
      ensures ok == CanPlay(old(State()).engine)
      ensures Valid() && State() == AfterPlayWith(old(State()), note, octave, with)
    {
      PlayWithKeepsInv(State(), note, octave, with);
      ok := audio.PlayNote(note, octave, with);
      if ok {
        activeNotes := activeNotes + {Key(note, octave)};
      }
    }

    method HandlePlayNote(note: string, octave: int)
      requires Valid()
      modifies this, audio
      ensures Valid() && State() == AfterHandlePlayNote(old(State()), note, octave)
    {
      var _ := PlayWith(note, octave, instrument);
    }

    method HandleStopNote(note: string, octave: int)
      requires Valid()
      modifies this, audio
      ensures Valid() && State() == AfterHandleStopNote(old(State()), note, octave)
    {
      StopNoteKeepsInv(audio.State(), note, octave);
      audio.StopNote(note, octave);
      activeNotes := activeNotes - {Key(note, octave)};
    }

    method SetInstrument(choice: InstrumentType)
      requires Valid()
      modifies this
      ensures Valid() && State() == old(State()).(instrument := choice)
    {
      instrument := choice;
    }

    /** `analysis` is the settled result of the song analysis, None when it failed. */
    method HandleProcessUrl(url: string, analysis: Option<SongAnalysisResponse>)
      requires Valid()
      modifies this
      ensures Valid() && State() == AfterProcessUrl(old(State()), url, analysis)
    {
      if url == "" {
        return;
      }
      if analysis.Some? {
        guide := analysis;
        currentStep := At(0);
      }
    }

    method NextStep()
      requires Valid()
      modifies this
      ensures Valid() && State() == AfterNextStep(old(State()))
    {
      if guide.None? {
        return;
      }
      var len := |guide.value.notes|;
      match currentStep
      case NotANumber =>
      case At(i) =>
        if len == 0 {
          currentStep := NotANumber;
        } else {
          currentStep := At(JsRem(i + 1, len));
        }
    }

    method StartAutoPlay()
      requires Valid()
      modifies this
      ensures Valid() && State() == AfterStartAutoPlay(old(State()))
    {
      if guide.None? {
        return;
      }
      var handle := nextHandle;
      nextHandle := nextHandle + 1;
      intervals := intervals[handle := Interval(0, guide.value.notes, instrument)];
      timerRef := Some(handle);
    }

    method StopAutoPlay()
      requires Valid()
      modifies this
      ensures Valid() && State() == AfterStopAutoPlay(old(State()))
    {
      if timerRef.Some? {
        intervals := intervals - {timerRef.value};
        timerRef := None;
      }
    }

    /** Interval `h` fires: one auto-play tick. */
    method Tick(h: nat)
      requires Valid() && h in intervals
      modifies this, audio
      ensures Valid() && State() == AfterTick(old(State()), h)
    {
      TickKeepsInv(State(), h);
      var iv := intervals[h];
      if iv.cursor >= |iv.notes| {
        return;
      }
      var n := iv.notes[iv.cursor];
      var ok := PlayWith(n.note, n.octave, iv.instrument);
      if !ok {
        return;
      }
      pendingStops := pendingStops + [Pitch(n.note, n.octave)];
      currentStep := At(iv.cursor);
      intervals := intervals[h := iv.(cursor := (iv.cursor + 1) % |iv.notes|)];
    }

    /** The oldest 400 ms stop timeout fires. */
    method FireStop()
      requires Valid() && pendingStops != []
      modifies this, audio
      ensures Valid() && State() == AfterStopTimer(old(State()))
    {
      var s := pendingStops[0];
      pendingStops := pendingStops[1..];
      HandleStopNote(s.note, s.octave);
    }

    /** renderKeys: octave by octave, the twelve notes of each. */
    method RenderKeys() returns (keys: seq<PianoKey>)
      ensures keys == Keyboard(guide, currentStep, activeNotes)
    {
      keys := [];
      var o := 0;
      while o < |Octaves|
        invariant 0 <= o <= |Octaves|
        invariant keys == Rows(guide, currentStep, activeNotes, Octaves[..o])
      {
        var octave := Octaves[o];
        ghost var row := Row(guide, currentStep, activeNotes, octave);
        var n := 0;
        while n < |NoteNames|
          invariant 0 <= n <= |NoteNames|
          invariant keys == Rows(guide, currentStep, activeNotes, Octaves[..o]) + row[..n]
        {
          var note := NoteNames[n];
          assert row[..n + 1] == row[..n] + [row[n]];
          keys := keys + [KeyFor(guide, currentStep, activeNotes, note, octave)];
          n := n + 1;
        }
        assert row[..n] == row;
        assert Octaves[..o + 1][..o] == Octaves[..o];
        o := o + 1;
      }
      assert Octaves[..o] == Octaves;
    }
  }
}

=== FILE: types.dfy ===
/** The records the synthesizer and the player exchange (types.ts). */
module Types {
  /** The two synthesis recipes the user can pick. */
  datatype InstrumentType = Piano | Organ

  /** One entry of a song guide: a note name such as "C#", its octave and its position. */
  datatype NoteGuide = NoteGuide(note: string, octave: int, duration: string, step: int)

  /** What the song analysis provider returns; only `notes` drives playback. */
  datatype SongAnalysisResponse = SongAnalysisResponse(
    songTitle: string,
    artist: string,
    notes: seq<NoteGuide>,
    difficulty: string)
}

=== FILE: wrappers.dfy ===
/** Optional values: the model's stand-in for JavaScript's `null` / `undefined`. */
module Wrappers {
  datatype Option<+T> = None | Some(value: T)
}
